=== FILE: README.md ===
# A Dafny model of the `sql` schema library's rendering and catalog-mapping core

The `sql` crate describes a database schema as data: a `Schema` is a list of
`Table`s, a table holds `Column`s and `Index`es, and a column may be
`Generated`. This project models three parts of it:

- **Rendering.** The schema objects render themselves as SQL text. This
  covers quoting identifiers, writing qualified table names, joining
  sequences, writing `CREATE [UNIQUE] ... USING ...` for indexes, and writing
  `GENERATED ... AS ...` for generated columns.
- **Building.** Tables are built with `Table::new(..).column(..).index(..).schema(..)`.
  `Schema::name_schema` stamps a schema name on every table.
- **Catalog mapping.** The `sql_sqlx` crate reads a live PostgreSQL schema.
  The model covers the pure steps applied to the catalog rows it fetches:
  - deciding whether a column is generated;
  - converting one column row to a `Column`;
  - grouping runs of rows into tables;
  - attaching foreign keys to their columns with a forward-only cursor.

The crate has no reader for the SQL text it renders. To state what rendering preserves, the
model adds readers of its own as proof partners: quoted identifiers, table
names, non-empty quoted column lists, indexes of canonical kind, and
generated clauses (up to the expression's text) each have a reader, and
round-trip lemmas prove it recovers what was rendered. `push_sql` and
`push_sql_sequence` render arbitrary nodes and have no reader; the sequence
loop is instead proved equal to a reference join.

Appending to a buffer (`buf.push_x(..)`) is modelled as a pure function from
the old buffer to the new one. A panic in the source (`panic!`, `unwrap`,
`expect`) becomes a precondition.

Each module follows one source file:

| file | module | source |
|---|---|---|
| `wrappers.dfy` | `Wrappers` | `Option` and `Result` |
| `util.dfy` | `Util` | `src/util.rs` |
| `types.dfy` | `SqlTypes` | the type and expression layer the core touches |
| `generated.dfy` | `GeneratedColumns` | `sql/src/schema/generated.rs` |
| `index.dfy` | `Indexes` | `sql/src/schema/index.rs` |
| `table.dfy` | `Tables` | `src/schema/table.rs` |
| `schema.dfy` | `Schemas` | `sql/src/schema/mod.rs` and `sql/src/schema.rs` |
| `catalog.dfy` | `CatalogRows` | `parse_generated` and `ColumnRow -> Column` in `sql_sqlx/src/lib.rs` |
| `grouping.dfy` | `TableGrouping` | the `chunk_by` step of `try_from_postgres` |
| `foreignkeys.dfy` | `ForeignKeys` | the foreign-key loop of `try_from_postgres` |
| `introspection.dfy` | `Introspection` | `try_from_postgres` from its query results to the `Schema` |

Three pieces of code are not part of this model and appear only as
parameters:
- `Type::from_str` is the parameter `fromStr`.
- `Expr::write_sql` is the parameter `renderExpr`.
- `Dialect` is an abstract type.

Both `Schema::name_schema` definitions share one model, because the two are
identical.

## Model

| member | source | states |
|---|---|---|
| Util.PushQuoted | src/util.rs:11-18 | Requires the identifier to hold no `"` (the panic). Appends exactly `"` + s + `"`: the length grows by \|s\|+2, the old buffer stays a prefix, and the appended text reads back as s. |
| Util.PushQuotedAppends | src/util.rs:15-17 | The result is the old buffer followed by the quoted identifier. |
| Util.PushTableName | src/util.rs:20-26 | Without a schema, appends exactly `"t"`. With one, appends `"s"."t"`: one dot between the two quoted parts. The appended text reads back as the same schema and table. |
| Util.PushTableNameAppends | src/util.rs:20-26 | The result is the old buffer followed by the table-name text. |
| Util.PushSql | src/util.rs:28-30 | Appends exactly the node's own rendering. The old buffer is a prefix. |
| Util.PushSqlSequence | src/util.rs:32-41 | The `first`-flag loop appends exactly the reference join of the renderings. Nothing is appended for no items. |
| Util.JoinSnoc | src/util.rs:33-40 | One more item adds exactly one separator and its rendering at the end, and no separator when it is the first item. |
| Util.JoinEnds | src/util.rs:33-40 | A non-empty join starts with the first item's rendering and ends with the last item's: no separator is inserted before the first rendering or after the last. |
| Util.JoinAppend | src/util.rs:33-40 | Joining two non-empty runs puts exactly one separator between them, preserving order. |
| Util.PushQuotedSequence | sql/src/schema/index.rs:51 | Requires every name to be quotable. Appends the quoted names joined by the separator. The old buffer is a prefix. |
| Util.QuotedRoundTrip | src/util.rs:11-18 | A quoted identifier is read back exactly, whatever follows it. |
| Util.TableNameRoundTrip | src/util.rs:20-26 | A written table name, qualified or not, is read back as the same schema and table, provided the text after it does not start with `.`. |
| Util.QualifiedNameRoundTrip | src/util.rs:21-25 | `"s"."t"` reads back as schema s and table t. |
| Util.QuotedItemsRoundTrip | sql/src/schema/index.rs:51 | A non-empty `, `-joined list of quoted names reads back as the same names, in order, provided the text after it does not start with `, `. |
| SqlTypes.TruncateToUInt8 | sql_sqlx/src/lib.rs:173-177 | `i32 as u8` gives the byte congruent to the input modulo 256. |
| SqlTypes.TruncateKeepsBytes | sql_sqlx/src/lib.rs:173-177 | A value already in 0..255 is kept. |
| SqlTypes.TruncateWraps | sql_sqlx/src/lib.rs:173-177 | Values beyond a byte wrap: x+256 becomes x, and -x becomes 256-x. |
| GeneratedColumns.WriteSql | sql/src/schema/generated.rs:26-40 | Rendering only appends: the old buffer is a prefix. |
| GeneratedColumns.WriteSqlLayout | sql/src/schema/generated.rs:26-40 | Appends `GENERATED `, then the time keyword, then ` AS `, then the body. The body is `IDENTITY`, or the expression's rendering followed by ` STORED`, without parentheses. |
| GeneratedColumns.WriteSqlShape | sql/src/schema/generated.rs:27-38 | The output starts with `GENERATED `. It has `ALWAYS AS ` exactly for Always and `BY DEFAULT AS ` exactly for ByDefault. Identity renders as exactly `GENERATED <time> AS IDENTITY`. Exactly the expression forms end with ` STORED`. |
| GeneratedColumns.ClauseRoundTrip | sql/src/schema/generated.rs:26-40 | The rendered clause reads back as its time and value, with the expression as the text its renderer produced. |
| GeneratedColumns.IdentityIgnoresDialect | sql/src/schema/generated.rs:26-34 | An identity clause is the same for every dialect and every expression renderer. |
| Indexes.WriteSql | sql/src/schema/index.rs:32-53 | Requires every identifier to be quotable (the panics of `push_quoted`). Rendering only appends. |
| Indexes.WriteSqlLayout | sql/src/schema/index.rs:32-53 | Appends `CREATE `, then `UNIQUE ` if unique, then the quoted name, ` ON `, the table name, ` USING `, the method text, ` (`, the quoted columns joined by `, `, and `)`. There is no `INDEX` keyword. |
| Indexes.WriteSqlShape | sql/src/schema/index.rs:33-52 | The output starts with `CREATE `. It has `CREATE UNIQUE ` exactly when the index is unique. It ends with ` USING <method> (<columns>)`, and its last character is `)`. |
| Indexes.DefaultKind | sql/src/schema/index.rs:14-18 | The default index kind is B-tree: the kind that writes no method text, and the one an empty method text reads back as. |
| Indexes.DefaultKindWritesNoMethod | sql/src/schema/index.rs:40-50 | The default kind writes no method text at all, leaving `USING  (` with two spaces. |
| Indexes.IndexRoundTrip | sql/src/schema/index.rs:31-53 | For any kind that does not masquerade as a built-in one, the statement reads back as exactly the index rendered. |
| Indexes.OtherKindCanAlias | sql/src/schema/index.rs:41-49 | `Other("HASH")` renders like `Hash`, and `Other("")` like the default B-tree. So the round trip needs canonical kinds. |
| Indexes.WriteSqlIgnoresDialect | sql/src/schema/index.rs:32 | The statement is the same for every dialect. |
| Tables.New | src/schema/table.rs:13-20 | No schema, the given name, no columns and no indexes. |
| Tables.WithColumn | src/schema/table.rs:22-25 | Appends the column at the end. Earlier columns and every other field are unchanged. |
| Tables.WithIndex | src/schema/table.rs:27-30 | Appends the index at the end. Earlier indexes and every other field are unchanged. |
| Tables.WithSchema | src/schema/table.rs:32-35 | Sets the schema to the given name. Every other field is unchanged. |
| Tables.AddColumnsInOrder | src/schema/table.rs:22-25 | Chained `.column` calls append their columns in call order and change nothing else. |
| Tables.AddIndexesInOrder | src/schema/table.rs:27-30 | Chained `.index` calls append their indexes in call order and change nothing else. |
| Tables.BuilderChain | src/schema/table.rs:13-35 | `new(n)`, then columns, then indexes, then `.schema(s)` gives exactly that schema, name, columns and indexes. |
| Tables.SchemaLastWins | src/schema/table.rs:32-35 | Setting the schema twice keeps the last value, and setting the same value twice is the same as once. |
| Tables.SchemaCommutesWithColumn | src/schema/table.rs:22-35 | `.schema` and `.column` calls commute. |
| Schemas.NameTables | sql/src/schema/mod.rs:33-35 | The loop sets each table's schema and leaves every other field of every table unchanged. |
| Schemas.NameSchema | sql/src/schema/mod.rs:32-36 | Every table gets the schema name. The number and order of tables are unchanged, as is each table's name, columns and indexes. |
| Schemas.NameSchemaIdempotent | sql/src/schema.rs:30-34 | Naming twice is naming once with the last name. Naming twice with the same name is idempotent. |
| Schemas.NameSchemaFixesNamed | sql/src/schema.rs:30-34 | A schema whose tables all carry the name already is left unchanged. |
| CatalogRows.ParseGenerated | sql_sqlx/src/lib.rs:135-156 | A result exists exactly when the time is `ALWAYS` or `BY DEFAULT` and the column is an identity or has an expression. The time keyword is kept. Identity holds exactly when the identity field is `YES`, even when an expression is present. Otherwise the value is the raw expression text. |
| CatalogRows.ParseGeneratedRoundTrip | sql_sqlx/src/lib.rs:140-155 | Every generated spec whose expression, if any, is raw SQL text is recovered from its catalog description. An identity's recovery ignores any expression reported alongside it. |
| CatalogRows.ColumnType | sql_sqlx/src/lib.rs:164-180 | A `numeric` row with precision and scale gives `Numeric`, both narrowed to a byte. An `ARRAY` row gives an array of the parsed element type, or the parser's error. Every other row gives the parse of its data type, including `numeric` without both parts. |
| CatalogRows.ColumnTypeParsesOneName | sql_sqlx/src/lib.rs:164-180 | The parser is consulted on one name at most: two parsers that agree on it give the same type. |
| CatalogRows.ColumnFromRow | sql_sqlx/src/lib.rs:158-196 | Fails exactly when the type fails, with its error. On success, the name, type and generation come from the row, and the column is nullable exactly when `is_nullable` is `YES`. It is never a primary key and has no default and no constraint. |
| CatalogRows.ColumnIgnoresRowKeys | sql_sqlx/src/lib.rs:186-193 | The row's table name, ordinal position and `primary_key` flag do not affect the column. |
| CatalogRows.NumericRowConverts | sql_sqlx/src/lib.rs:259-274 | A `numeric` row with precision 10 and scale 2 converts to `Numeric(10, 2)`. |
| CatalogRows.IntegerRowConverts | sql_sqlx/src/lib.rs:276-291 | An `integer` row takes the parser's type whatever precision and scale are reported, so `I32` when the parser maps `integer` to it. |
| CatalogRows.NumericWithoutPartsIsParsed | sql_sqlx/src/lib.rs:173-179 | A `numeric` row missing its precision or scale is parsed by name. |
| CatalogRows.ConvertRows | sql_sqlx/src/lib.rs:206-208 | Collecting conversions gives one column per row on success. |
| CatalogRows.ConvertRowsSucceeds | sql_sqlx/src/lib.rs:206-208 | Succeeds exactly when every row converts. Each column is then its row's conversion, at the row's position. |
| CatalogRows.ConvertRowsFailsFirst | sql_sqlx/src/lib.rs:206-208 | A failure carries the error of the first row that fails, with every earlier row converting. |
| CatalogRows.ConvertRowsAppend | sql_sqlx/src/lib.rs:206-208 | Converting two stretches gives the first stretch's error if it has one, else the second's, else both column lists in order. |
| TableGrouping.ChunkByTable | sql_sqlx/src/lib.rs:201-204 | The runs concatenate back to the rows. Every run is non-empty and of one table, and neighbouring runs belong to different tables. The first run is of the first row's table. |
| TableGrouping.MaximalRunsUnique | sql_sqlx/src/lib.rs:201-204 | Two splits of the same rows into maximal runs are equal. |
| TableGrouping.ChunkByTableIsTheSplit | sql_sqlx/src/lib.rs:201-204 | Any split into maximal runs is the one `chunk_by` computes. |
| TableGrouping.BuildTables | sql_sqlx/src/lib.rs:205-215 | One table per run, in the schema read, named after the run, with no indexes and the run's converted rows as its columns. Succeeds exactly when all rows convert; otherwise the first error. |
| TableGrouping.TablesFromRows | sql_sqlx/src/lib.rs:201-215 | Succeeds exactly when all rows convert, with the first error otherwise. On success: all tables' columns are the converted rows in order, and each table is in the schema read, with no indexes and at least one column. Neighbouring tables have different names, and there is one table per maximal run, built from it. |
| ForeignKeys.FindFrom | sql_sqlx/src/lib.rs:219-227 | The first position at or after the cursor holding the name, or none exactly when no such position exists. |
| ForeignKeys.AttachToColumn | sql_sqlx/src/lib.rs:228-231 | The column gets `ForeignKey{foreign table, [foreign column]}`. Every other column and field is unchanged. |
| ForeignKeys.AttachForeignKeys | sql_sqlx/src/lib.rs:217-232 | Requires the scan not to panic. Only column constraints change: tables, names, order and all other column fields are kept. |
| ForeignKeys.ScanSameNames | sql_sqlx/src/lib.rs:218-227 | Whether the scan panics depends only on the names: any two table lists with the same table names, and table by table the same column names, panic on exactly the same keys. |
| ForeignKeys.AttachSound | sql_sqlx/src/lib.rs:217-232 | Every column the scan changed holds the constraint of some key naming its table and itself. |
| ForeignKeys.AttachComplete | sql_sqlx/src/lib.rs:217-232 | With distinct table names, each key not overridden by a later key for the same column ends up on the first column of its name in its table. |
| ForeignKeys.OrderedScanSucceeds | sql_sqlx/src/lib.rs:218-227 | With distinct table names, keys whose tables and columns exist and come in table order never panic. |
| ForeignKeys.ScanNeedsOrder | sql_sqlx/src/lib.rs:218-221 | With distinct table names, a scan that does not panic had keys in table order, none naming a table before the cursor. |
| Introspection.SchemaFromCatalog | sql_sqlx/src/lib.rs:198-252 | Provided the empty-table pass terminates, succeeds exactly when all rows convert, with the first error otherwise. On success there is one table per run, each in the schema read, named after its run, with no indexes and one column per row of the run. The tables are the grouped tables with at most column constraints changed. |
| Introspection.ReadSchemaIsNamed | sql_sqlx/src/lib.rs:209-213 | The schema read is already named: `name_schema` with the schema name changes nothing. |
| Introspection.NoKeysNoConstraints | sql_sqlx/src/lib.rs:190-192 | Without foreign-key rows, the schema is exactly the grouped tables and no column has a constraint. |
| Introspection.KeyLands | sql_sqlx/src/lib.rs:217-232 | With distinct table names, each foreign key not overridden later lands on the column it names in the schema read. |

## Left out

- Database access: the `FromPostgres` plumbing and the three catalog queries (`sql_sqlx/src/lib.rs:7-133`). Their results are inputs.
- The empty-table pass (`sql_sqlx/src/lib.rs:235-250`). Its result is never added to the returned schema. Its inner `while let` does not advance when the name differs from the current table, so it does not terminate on such input.
- `Schema::migrate_to` is a one-line delegation to the migration engine, which is not part of this model.
- `Type::from_str`, `Expr::write_sql` and the `Dialect` enumeration are not part of this model. They are parameters or an abstract type.
- `Expr` is reduced to its raw-SQL variant `Raw`, the only one the catalog mapping builds (`sql_sqlx/src/lib.rs:151`). A generated column holding any other kind of expression cannot be represented, so the generated-column round trip covers raw expressions only.
- Util.PushQuotedSequence: `push_quoted_sequence` is not defined in `src/util.rs`. It is assumed to be the quoted analogue of `push_sql_sequence`: each name quoted as by `push_quoted`, joined by the separator.
- The `Column`, `Constraint` and `ForeignKey` definitions are not part of this model. The model keeps the fields the catalog mapping sets, and flattens `Constraint::ForeignKey(ForeignKey { table, columns })` into one variant.
- `sql_sqlx` builds `Table` without an `indexes` field, which belongs to another version of the crate. The model gives such tables no indexes.
- Panics are preconditions, not modelled failures:
  - quoting an identifier that holds `"`;
  - an `ARRAY` row without an element type that is reached during conversion;
  - a foreign key whose table is not at or after the cursor, or whose column is missing.
- Indexes.IndexRoundTrip: holds only for canonical kinds. An `Other` method text equal to a built-in one, or holding `(`, cannot be told apart.
- ForeignKeys.AttachComplete: states where keys land only when table names are distinct. With repeated names, the cursor picks the first match at or after it; `AttachSound` and `AttachForeignKeys` still cover that case.
- Grouping is by consecutive runs, as `chunk_by` does. Rows of one table that are not adjacent give two tables with the same name; the model reproduces this rather than merging them.

=== FILE: catalog.dfy ===
/** Turning one row of the column catalog query into a `Column`: the
    generated-column decision table (`parse_generated`) and the row conversion
    (`TryInto<Column> for ColumnRow`). The type-name parser `Type::from_str`
    is not part of this model and is passed in as `fromStr`. */
module CatalogRows {
  import opened Wrappers
  import opened SqlTypes
  import G = GeneratedColumns
  import Tables
  import Util

  /** One row of the column catalog query. */
  datatype ColumnRow = ColumnRow(
    tableName: string,
    columnName: string,
    ordinalPosition: Int32,
    isNullable: string,
    dataType: string,
    numericPrecision: Option<Int32>,
    numericScale: Option<Int32>,
    innerType: Option<string>,
    primaryKey: bool,
    generationTime: Option<string>,
    generationExpression: Option<string>,
    identityGeneration: Option<string>)

  /** `parse_generated`: a column is generated when the catalog names a
      generation time it knows and says either that the column is an
      identity or what its expression is. An identity wins over an
      expression. */
  function ParseGenerated(time: Option<string>, expr: Option<string>, identity: Option<string>): (r: Option<G.Generated>)
    ensures r.Some? <==>
              && (time == Some("ALWAYS") || time == Some("BY DEFAULT"))
              && (identity == Some("YES") || expr.Some?)
    ensures r.Some? ==> time == Some(G.TimeKeyword(r.value.time))
    ensures r.Some? ==> (r.value.value.Identity? <==> identity == Some("YES"))
    ensures r.Some? && r.value.value.Expr? ==> expr == Some(r.value.value.expr.sql)
  {
    if time.None? then None
    else
      var t :=
        if time.value == "ALWAYS" then Some(G.Always)
        else if time.value == "BY DEFAULT" then Some(G.ByDefault)
        else None;
      if t.None? then None
      else if identity.Some? && identity.value == "YES" then Some(G.Generated(t.value, G.Identity))
      else if expr.Some? then Some(G.Generated(t.value, G.Expr(Raw(expr.value))))
      else None
  }

  /** How the catalog describes a generated column: its time keyword, the
      expression text for a stored column, and `YES` for an identity. */
  function CatalogTime(g: G.Generated): Option<string> {
    Some(G.TimeKeyword(g.time))
  }

  function CatalogExpression(g: G.Generated): Option<string> {
    match g.value
    case Identity => None
    case Expr(e) => Some(e.sql)
  }

  function CatalogIdentity(g: G.Generated): Option<string> {
    if g.value.Identity? then Some("YES") else None
  }

  /** Every generated column is read back from its catalog description; for
      an identity column, whatever expression the catalog also reports is
      ignored. */
  lemma ParseGeneratedRoundTrip(g: G.Generated, extra: Option<string>)
    ensures ParseGenerated(CatalogTime(g), CatalogExpression(g), CatalogIdentity(g)) == Some(g)
    ensures g.value.Identity? ==> ParseGenerated(CatalogTime(g), extra, CatalogIdentity(g)) == Some(g)
  {
    match g.value {
      case Identity =>
      case Expr(e) =>
        assert e == Raw(e.sql);
    }
  }

  /** Reading an `ARRAY` row's element type panics when the catalog gives
      none, so only rows meeting this can be converted. */
  predicate ArrayHasInner(row: ColumnRow) {
    row.dataType == "ARRAY" ==> row.innerType.Some?
  }

  /** Whether the `numeric` special case applies: both precision and scale
      are reported. */
  predicate HasNumericParts(row: ColumnRow) {
    row.dataType == "numeric" && row.numericPrecision.Some? && row.numericScale.Some?
  }

  /** The one type name `ColumnType` hands to the parser, if it consults it:
      the element type of an array, otherwise the data type itself. */
  function ParsedName(row: ColumnRow): string
    requires ArrayHasInner(row)
  {
    if row.dataType == "ARRAY" then row.innerType.value else row.dataType
  }

  /** The column type of a catalog row. A `numeric` row with precision and
      scale is `Numeric` with both narrowed to a byte; an `ARRAY` row is an
      array of its parsed element type; everything else is parsed from the
      data type's name. */
  function ColumnType(row: ColumnRow, fromStr: string -> Result<Type>): (r: Result<Type>)
    requires ArrayHasInner(row)
    ensures HasNumericParts(row) ==>
              && r.Success? && r.value.Numeric?
              && (r.value.precision - row.numericPrecision.value) % 0x100 == 0
              && (r.value.scale - row.numericScale.value) % 0x100 == 0
    ensures row.dataType == "ARRAY" ==>
              && (r.Success? <==> fromStr(row.innerType.value).Success?)
              && (r.Success? ==> r.value.Array? && Success(r.value.inner) == fromStr(row.innerType.value))
              && (r.Failure? ==> r == fromStr(row.innerType.value))
    ensures row.dataType != "ARRAY" && !HasNumericParts(row) ==> r == fromStr(row.dataType)
  {
    if row.dataType == "ARRAY" then
      var inner :- fromStr(row.innerType.value);
      Success(Array(inner))
    else if HasNumericParts(row) then
      Success(Numeric(TruncateToUInt8(row.numericPrecision.value), TruncateToUInt8(row.numericScale.value)))
    else
      fromStr(row.dataType)
  }

  /** The conversion consults the type-name parser on at most one name: two
      parsers that agree on it give the same type, and a `numeric` row with
      both parts does not consult it at all. */
  lemma ColumnTypeParsesOneName(row: ColumnRow, f1: string -> Result<Type>, f2: string -> Result<Type>)
    requires ArrayHasInner(row)
    requires HasNumericParts(row) || f1(ParsedName(row)) == f2(ParsedName(row))
    ensures ColumnType(row, f1) == ColumnType(row, f2)
  {
  }

  /** `ColumnRow::try_into`: the column takes its name, type, nullability and
      generation from the row; it is never a primary key and never has a
      default or a constraint. It fails exactly when its type fails. */
  function ColumnFromRow(row: ColumnRow, fromStr: string -> Result<Type>): (r: Result<Tables.Column>)
    requires ArrayHasInner(row)
    ensures r.Success? <==> ColumnType(row, fromStr).Success?
    ensures r.Failure? ==> r.error == ColumnType(row, fromStr).error
    ensures r.Success? ==>
              && r.value.name == row.columnName
              && r.value.typ == ColumnType(row, fromStr).value
              && (r.value.nullable <==> row.isNullable == "YES")
              && !r.value.primaryKey
              && r.value.default.None?
              && r.value.constraint.None?
              && r.value.generated == ParseGenerated(row.generationTime, row.generationExpression, row.identityGeneration)
  {
    var nullable := row.isNullable == "YES";
    var typ :- ColumnType(row, fromStr);
    var generated := ParseGenerated(row.generationTime, row.generationExpression, row.identityGeneration);
    Success(Tables.Column(row.columnName, typ, nullable, false, None, None, generated))
  }

  /** The row's table name, ordinal position and primary-key flag play no
      part in the column it converts to. */
  lemma ColumnIgnoresRowKeys(row: ColumnRow, fromStr: string -> Result<Type>,
                             table: string, position: Int32, primaryKey: bool)
    requires ArrayHasInner(row)
    ensures ColumnFromRow(row.(tableName := table, ordinalPosition := position, primaryKey := primaryKey), fromStr)
            == ColumnFromRow(row, fromStr)
  {
  }

  /** A `numeric` row with precision 10 and scale 2 becomes `Numeric(10, 2)`,
      whatever the parser does. */
  lemma NumericRowConverts(row: ColumnRow, fromStr: string -> Result<Type>)
    requires row.dataType == "numeric" && row.numericPrecision == Some(10) && row.numericScale == Some(2)
    ensures ColumnFromRow(row, fromStr).Success?
    ensures ColumnFromRow(row, fromStr).value.typ == Numeric(10, 2)
  {
  }

  /** An `integer` row takes the parser's type for `integer`, whatever
      precision and scale the catalog reports. */
  lemma IntegerRowConverts(row: ColumnRow, fromStr: string -> Result<Type>)
    requires row.dataType == "integer" && fromStr("integer") == Success(I32)
    ensures ColumnFromRow(row, fromStr).Success?
    ensures ColumnFromRow(row, fromStr).value.typ == I32
  {
  }

  /** A `numeric` row missing its precision or its scale is parsed by name
      like any other type. */
  lemma NumericWithoutPartsIsParsed(row: ColumnRow, fromStr: string -> Result<Type>)
    requires row.dataType == "numeric" && (row.numericPrecision.None? || row.numericScale.None?)
    ensures ColumnType(row, fromStr) == fromStr("numeric")
  {
  }

  /** The first `n` rows are each reached and each convert. */
  predicate ConvertsUpTo(rows: seq<ColumnRow>, fromStr: string -> Result<Type>, n: nat)
    requires n <= |rows|
  {
    forall j :: 0 <= j < n ==> ArrayHasInner(rows[j]) && ColumnFromRow(rows[j], fromStr).Success?
  }

  /** Collecting conversions stops at the first failing row, so an `ARRAY`
      row without an element type panics only when every row before it
      converted. */
  predicate NoPanic(rows: seq<ColumnRow>, fromStr: string -> Result<Type>)
    decreases |rows|
  {
    rows == [] ||
    (ArrayHasInner(rows[0]) && (ColumnFromRow(rows[0], fromStr).Success? ==> NoPanic(rows[1..], fromStr)))
  }

  /** Converting rows with `collect::<Result<Vec<_>, _>>()`: all columns in
      row order, or the error of the first row that fails. */
  function ConvertRows(rows: seq<ColumnRow>, fromStr: string -> Result<Type>): (r: Result<seq<Tables.Column>>)
    requires NoPanic(rows, fromStr)
    ensures r.Success? ==> |r.value| == |rows|
    decreases |rows|
  {
    if rows == [] then Success([])
    else
      var c :- ColumnFromRow(rows[0], fromStr);
      var cs :- ConvertRows(rows[1..], fromStr);
      Success([c] + cs)
  }

  /** The conversion succeeds exactly when every row converts, and then
      holds each row's column at the row's position. */
  lemma {:induction false} ConvertRowsSucceeds(rows: seq<ColumnRow>, fromStr: string -> Result<Type>)
    requires NoPanic(rows, fromStr)
    ensures ConvertRows(rows, fromStr).Success? <==> ConvertsUpTo(rows, fromStr, |rows|)
    ensures ConvertRows(rows, fromStr).Success? ==>
              forall j :: 0 <= j < |rows| ==> ColumnFromRow(rows[j], fromStr) == Success(ConvertRows(rows, fromStr).value[j])
    decreases |rows|
  {
    if rows != [] && ColumnFromRow(rows[0], fromStr).Success? {
      ConvertRowsSucceeds(rows[1..], fromStr);
      assert forall j :: 1 <= j < |rows| ==> rows[j] == rows[1..][j - 1];
    }
  }

  /** A failed conversion reports the error of the first row that fails. */
  lemma {:induction false} ConvertRowsFailsFirst(rows: seq<ColumnRow>, fromStr: string -> Result<Type>)
    requires NoPanic(rows, fromStr)
    ensures ConvertRows(rows, fromStr).Failure? ==>
              exists i :: 0 <= i < |rows| && FailsFirstAt(rows, fromStr, i, ConvertRows(rows, fromStr).error)
    decreases |rows|
  {
    var r := ConvertRows(rows, fromStr);
    if rows != [] && r.Failure? {
      var c := ColumnFromRow(rows[0], fromStr);
      if c.Failure? {
        assert FailsFirstAt(rows, fromStr, 0, r.error);
      } else {
        ConvertRowsFailsFirst(rows[1..], fromStr);
        var i :| 0 <= i < |rows| - 1 && FailsFirstAt(rows[1..], fromStr, i, r.error);
        assert FailsFirstAt(rows, fromStr, i + 1, r.error);
      }
    }
  }

  /** No panic over two stretches of rows means none over the first, and
      none over the second once the first has converted. */
  lemma {:induction false} NoPanicAppend(a: seq<ColumnRow>, b: seq<ColumnRow>, fromStr: string -> Result<Type>)
    requires NoPanic(a + b, fromStr)
    ensures NoPanic(a, fromStr)
    ensures ConvertRows(a, fromStr).Success? ==> NoPanic(b, fromStr)
    decreases |a|
  {
    if a == [] {
      assert a + b == b;
    } else {
      assert (a + b)[0] == a[0];
      assert (a + b)[1..] == a[1..] + b;
      if ColumnFromRow(a[0], fromStr).Success? {
        NoPanicAppend(a[1..], b, fromStr);
      }
    }
  }

  /** Converting two stretches of rows one after the other: the first
      stretch's error if it has one, else the second's, else both column
      lists in order. */
  lemma {:induction false} ConvertRowsAppend(a: seq<ColumnRow>, b: seq<ColumnRow>, fromStr: string -> Result<Type>)
    requires NoPanic(a + b, fromStr)
    ensures NoPanic(a, fromStr)
    ensures ConvertRows(a, fromStr).Success? ==> NoPanic(b, fromStr)
    ensures ConvertRows(a + b, fromStr) ==
              if ConvertRows(a, fromStr).Failure? then ConvertRows(a, fromStr)
              else if ConvertRows(b, fromStr).Failure? then ConvertRows(b, fromStr)
              else Success(ConvertRows(a, fromStr).value + ConvertRows(b, fromStr).value)
    decreases |a|
  {
    NoPanicAppend(a, b, fromStr);
    if a == [] {
      assert a + b == b;
      assert ConvertRows(a, fromStr) == Success([]);
      if ConvertRows(b, fromStr).Success? {
        assert [] + ConvertRows(b, fromStr).value == ConvertRows(b, fromStr).value;
      }
    } else {
      assert a == [a[0]] + a[1..];
      assert a + b == [a[0]] + (a[1..] + b);
      ConvertRowsCons(a[0], a[1..], fromStr);
      ConvertRowsCons(a[0], a[1..] + b, fromStr);
      var h := ColumnFromRow(a[0], fromStr);
      if h.Success? {
        ConvertRowsAppend(a[1..], b, fromStr);
        var tail := ConvertRows(a[1..], fromStr);
        if tail.Success? {
          var rb := ConvertRows(b, fromStr);
          if rb.Success? {
            Util.Assoc([h.value], tail.value, rb.value);
          }
        }
      }
    }
  }

  /** Converting a row followed by more rows. */
  lemma ConvertRowsCons(x: ColumnRow, rest: seq<ColumnRow>, fromStr: string -> Result<Type>)
    requires NoPanic([x] + rest, fromStr)
    ensures ArrayHasInner(x)
    ensures ColumnFromRow(x, fromStr).Success? ==> NoPanic(rest, fromStr)
    ensures ConvertRows([x] + rest, fromStr) ==
              if ColumnFromRow(x, fromStr).Failure? then Failure(ColumnFromRow(x, fromStr).error)
              else if ConvertRows(rest, fromStr).Failure? then ConvertRows(rest, fromStr)
              else Success([ColumnFromRow(x, fromStr).value] + ConvertRows(rest, fromStr).value)
  {
    assert ([x] + rest)[0] == x;
    assert ([x] + rest)[1..] == rest;
  }

  /** Row `i` is the first that fails to convert, with error `e`. */
  predicate FailsFirstAt(rows: seq<ColumnRow>, fromStr: string -> Result<Type>, i: nat, e: string)
    requires i < |rows|
  {
    && ConvertsUpTo(rows, fromStr, i)
    && ArrayHasInner(rows[i])
    && ColumnFromRow(rows[i], fromStr) == Failure(e)
  }
}

=== FILE: foreignkeys.dfy ===
/** Attaching the foreign keys of the constraint catalog to the columns of the
    tables read so far. A single cursor walks forward over the tables: for each
    foreign key it skips tables until it reaches one with the key's table
    name, then gives the first column of that name the constraint. The cursor
    never moves back, so the keys must come in table order; running off the
    end of the tables, or naming a column the table does not have, panics. */
module ForeignKeys {
  import opened Wrappers
  import Tables

  /** One row of the constraint catalog query. */
  datatype ForeignKeyRow = ForeignKeyRow(
    tableSchema: string,
    constraintName: string,
    tableName: string,
    columnName: string,
    foreignTableSchema: string,
    foreignTableName: string,
    foreignColumnName: string)

  /** The constraint a foreign-key row puts on its column: a reference to the
      one foreign column. */
  function ConstraintOf(fk: ForeignKeyRow): Tables.Constraint {
    Tables.ForeignKey(fk.foreignTableName, [fk.foreignColumnName])
  }

  /** The first position at or after `k` that holds `name`, if any. */
  function FindFrom(names: seq<string>, name: string, k: nat): (r: Option<nat>)
    requires k <= |names|
    ensures r.Some? ==> k <= r.value < |names| && names[r.value] == name
    ensures r.Some? ==> forall j :: k <= j < r.value ==> names[j] != name
    ensures r.None? <==> forall j :: k <= j < |names| ==> names[j] != name
    decreases |names| - k
  {
    if k == |names| then None
    else if names[k] == name then Some(k)
    else FindFrom(names, name, k + 1)
  }

  function TableNames(tables: seq<Tables.Table>): (r: seq<string>)
    ensures |r| == |tables|
  {
    seq(|tables|, i requires 0 <= i < |tables| => tables[i].name)
  }

  function ColumnNames(columns: seq<Tables.Column>): (r: seq<string>)
    ensures |r| == |columns|
  {
    seq(|columns|, i requires 0 <= i < |columns| => columns[i].name)
  }

  /** The scan over `fks`, starting with the cursor at table `k`, never
      panics: each key finds its table at or after the cursor left by the
      previous key, and that table has the key's column. */
  predicate ScanSucceeds(tables: seq<Tables.Table>, fks: seq<ForeignKeyRow>, k: nat)
    requires k <= |tables|
    decreases |fks|
  {
    fks == [] ||
    (var j := FindFrom(TableNames(tables), fks[0].tableName, k);
     && j.Some?
     && FindFrom(ColumnNames(tables[j.value].columns), fks[0].columnName, 0).Some?
     && ScanSucceeds(tables, fks[1..], j.value))
  }

  /** Column `c2` is `c1` except perhaps for its constraint. */
  predicate SameColumnBut(c1: Tables.Column, c2: Tables.Column) {
    c2.(constraint := c1.constraint) == c1
  }

  /** Table `t2` is `t1` except perhaps for the constraints of its columns. */
  predicate SameTableBut(t1: Tables.Table, t2: Tables.Table) {
    && t2.(columns := t1.columns) == t1
    && |t2.columns| == |t1.columns|
    && forall c :: 0 <= c < |t1.columns| ==> SameColumnBut(t1.columns[c], t2.columns[c])
  }

  /** The tables `b` are the tables `a` with at most some column constraints
      changed. */
  predicate SameShape(a: seq<Tables.Table>, b: seq<Tables.Table>) {
    |a| == |b| && forall i :: 0 <= i < |a| ==> SameTableBut(a[i], b[i])
  }

  lemma SameShapeTrans(a: seq<Tables.Table>, b: seq<Tables.Table>, c: seq<Tables.Table>)
    requires SameShape(a, b) && SameShape(b, c)
    ensures SameShape(a, c)
  {
    forall i | 0 <= i < |a|
      ensures SameTableBut(a[i], c[i])
    {
      assert SameTableBut(a[i], b[i]) && SameTableBut(b[i], c[i]);
      forall n | 0 <= n < |a[i].columns|
        ensures SameColumnBut(a[i].columns[n], c[i].columns[n])
      {
        assert SameColumnBut(a[i].columns[n], b[i].columns[n]);
        assert SameColumnBut(b[i].columns[n], c[i].columns[n]);
      }
    }
  }

  /** Tables of the same shape have the same table and column names. */
  lemma SameShapeNames(a: seq<Tables.Table>, b: seq<Tables.Table>)
    requires SameShape(a, b)
    ensures TableNames(a) == TableNames(b)
    ensures forall i :: 0 <= i < |a| ==> ColumnNames(a[i].columns) == ColumnNames(b[i].columns)
  {
    forall i | 0 <= i < |a|
      ensures ColumnNames(a[i].columns) == ColumnNames(b[i].columns)
    {
      assert SameTableBut(a[i], b[i]);
      forall n | 0 <= n < |a[i].columns|
        ensures a[i].columns[n].name == b[i].columns[n].name
      {
        assert SameColumnBut(a[i].columns[n], b[i].columns[n]);
      }
    }
    forall i | 0 <= i < |a|
      ensures a[i].name == b[i].name
    {
      assert SameTableBut(a[i], b[i]);
    }
  }

  /** The tables `a` and `b` agree on every table name and, table by table,
      on every column name. */
  predicate SameNames(a: seq<Tables.Table>, b: seq<Tables.Table>) {
    && TableNames(a) == TableNames(b)
    && forall i :: 0 <= i < |a| ==> ColumnNames(a[i].columns) == ColumnNames(b[i].columns)
  }

  /** Whether the scan panics depends only on the table and column names. */
  lemma {:induction false} ScanSameNames(a: seq<Tables.Table>, b: seq<Tables.Table>, fks: seq<ForeignKeyRow>, k: nat)
    requires SameNames(a, b) && k <= |a|
    ensures ScanSucceeds(a, fks, k) == ScanSucceeds(b, fks, k)
    decreases |fks|
  {
    if fks != [] {
      var j := FindFrom(TableNames(a), fks[0].tableName, k);
      if j.Some? {
        ScanSameNames(a, b, fks[1..], j.value);
      }
    }
  }

  /** Column `c` of table `t` gets the constraint of `fk`. */
  function AttachToColumn(t: Tables.Table, c: nat, fk: ForeignKeyRow): (r: Tables.Table)
    requires c < |t.columns|
    ensures SameTableBut(t, r)
    ensures r.columns[c].constraint == Some(ConstraintOf(fk))
    ensures forall n :: 0 <= n < |t.columns| && n != c ==> r.columns[n] == t.columns[n]
  {
    t.(columns := t.columns[c := t.columns[c].(constraint := Some(ConstraintOf(fk)))])
  }

  /** The foreign-key loop of `try_from_postgres`, with the cursor at table
      `k`. Only column constraints change. */
  function AttachForeignKeys(tables: seq<Tables.Table>, fks: seq<ForeignKeyRow>, k: nat): (r: seq<Tables.Table>)
    requires k <= |tables| && ScanSucceeds(tables, fks, k)
    ensures SameShape(tables, r)
    decreases |fks|
  {
    if fks == [] then tables
    else
      var j := FindFrom(TableNames(tables), fks[0].tableName, k).value;
      var c := FindFrom(ColumnNames(tables[j].columns), fks[0].columnName, 0).value;
      var next := tables[j := AttachToColumn(tables[j], c, fks[0])];
      assert SameShape(tables, next);
      SameShapeNames(tables, next);
      ScanSameNames(tables, next, fks[1..], j);
      var r := AttachForeignKeys(next, fks[1..], j);
      SameShapeTrans(tables, next, r);
      r
  }

  /** Column `now` of table `t` holds the constraint of `fk`, a key naming
      `t` and the column `col`. */
  predicate SetBy(t: Tables.Table, col: Tables.Column, fk: ForeignKeyRow, now: Tables.Column) {
    && fk.tableName == t.name
    && fk.columnName == col.name
    && now.constraint == Some(ConstraintOf(fk))
  }

  /** Nothing but a key changes a column: every column the scan changed holds
      the constraint of some key naming its table and itself. */
  lemma {:induction false} AttachSound(tables: seq<Tables.Table>, fks: seq<ForeignKeyRow>, k: nat)
    requires k <= |tables| && ScanSucceeds(tables, fks, k)
    ensures forall i, c :: 0 <= i < |tables| && 0 <= c < |tables[i].columns| ==>
              var after := AttachForeignKeys(tables, fks, k)[i].columns[c];
              after != tables[i].columns[c] ==>
                exists m :: 0 <= m < |fks| && SetBy(tables[i], tables[i].columns[c], fks[m], after)
    decreases |fks|
  {
    var r := AttachForeignKeys(tables, fks, k);
    assert SameShape(tables, r);
    if fks != [] {
      var j, c0, next := AttachStep(tables, fks, k);
      AttachSound(next, fks[1..], j);
      forall i, c | 0 <= i < |tables| && 0 <= c < |tables[i].columns| && r[i].columns[c] != tables[i].columns[c]
        ensures exists m :: 0 <= m < |fks| && SetBy(tables[i], tables[i].columns[c], fks[m], r[i].columns[c])
      {
        assert SameTableBut(tables[i], next[i]);
        assert SameTableBut(next[i], r[i]);
        var m := SoundAt(tables, fks, j, c0, next, r, i, c);
      }
    }
  }

  /** One changed column: either the first key set it, or a later key did. */
  lemma SoundAt(tables: seq<Tables.Table>, fks: seq<ForeignKeyRow>, j: nat, c0: nat,
                next: seq<Tables.Table>, r: seq<Tables.Table>, i: nat, c: nat)
    returns (m: nat)
    requires fks != [] && j < |tables| && c0 < |tables[j].columns|
    requires tables[j].name == fks[0].tableName
    requires FindFrom(ColumnNames(tables[j].columns), fks[0].columnName, 0) == Some(c0)
    requires next == tables[j := AttachToColumn(tables[j], c0, fks[0])]
    requires |r| == |tables| && i < |tables|
    requires |r[i].columns| == |tables[i].columns| && c < |tables[i].columns|
    requires r[i].columns[c] != tables[i].columns[c]
    requires TableNames(next) == TableNames(tables)
    requires ColumnNames(next[i].columns) == ColumnNames(tables[i].columns)
    requires r[i].columns[c] != next[i].columns[c] ==>
               exists n :: 0 <= n < |fks[1..]| && SetBy(next[i], next[i].columns[c], fks[1..][n], r[i].columns[c])
    ensures m < |fks| && SetBy(tables[i], tables[i].columns[c], fks[m], r[i].columns[c])
  {
    assert next[i].name == tables[i].name by {
      assert TableNames(next)[i] == TableNames(tables)[i];
    }
    assert next[i].columns[c].name == tables[i].columns[c].name by {
      assert ColumnNames(next[i].columns)[c] == ColumnNames(tables[i].columns)[c];
    }
    if r[i].columns[c] != next[i].columns[c] {
      var n :| 0 <= n < |fks[1..]| && SetBy(next[i], next[i].columns[c], fks[1..][n], r[i].columns[c]);
      assert fks[1..][n] == fks[n + 1];
      m := n + 1;
    } else {
      assert i == j && c == c0;
      m := 0;
    }
  }

  /** No two tables share a name. */
  predicate DistinctNames(tables: seq<Tables.Table>) {
    forall i, j :: 0 <= i < j < |tables| ==> tables[i].name != tables[j].name
  }

  /** Key `fk` is about column `c` of table `i`: the table has the key's
      table name and `c` is its first column with the key's column name. */
  predicate Targets(tables: seq<Tables.Table>, fk: ForeignKeyRow, i: int, c: int) {
    && 0 <= i < |tables|
    && 0 <= c
    && tables[i].name == fk.tableName
    && FindFrom(ColumnNames(tables[i].columns), fk.columnName, 0) == Some(c as nat)
  }

  /** Column `c` of table `i` holds the constraint of `fk`. */
  predicate Holds(tables: seq<Tables.Table>, i: int, c: int, fk: ForeignKeyRow) {
    && 0 <= i < |tables|
    && 0 <= c < |tables[i].columns|
    && tables[i].columns[c].constraint == Some(ConstraintOf(fk))
  }

  /** No later key is about the same table and column as key `m`. */
  predicate LastFor(fks: seq<ForeignKeyRow>, m: nat)
    requires m < |fks|
  {
    forall n :: m < n < |fks| ==> fks[n].tableName != fks[m].tableName || fks[n].columnName != fks[m].columnName
  }

  /** One step of the scan: the first key's table `j` and column `c`, and
      the tables `next` after its constraint is set. */
  lemma AttachStep(tables: seq<Tables.Table>, fks: seq<ForeignKeyRow>, k: nat)
    returns (j: nat, c: nat, next: seq<Tables.Table>)
    requires k <= |tables| && ScanSucceeds(tables, fks, k) && fks != []
    ensures k <= j < |tables| && c < |tables[j].columns|
    ensures tables[j].name == fks[0].tableName
    ensures FindFrom(ColumnNames(tables[j].columns), fks[0].columnName, 0) == Some(c)
    ensures next == tables[j := AttachToColumn(tables[j], c, fks[0])]
    ensures SameShape(tables, next) && SameShape(next, AttachForeignKeys(tables, fks, k))
    ensures TableNames(next) == TableNames(tables)
    ensures forall i :: 0 <= i < |tables| ==> ColumnNames(next[i].columns) == ColumnNames(tables[i].columns)
    ensures ScanSucceeds(next, fks[1..], j)
    ensures AttachForeignKeys(tables, fks, k) == AttachForeignKeys(next, fks[1..], j)
    ensures DistinctNames(tables) ==> DistinctNames(next)
  {
    j := FindFrom(TableNames(tables), fks[0].tableName, k).value;
    c := FindFrom(ColumnNames(tables[j].columns), fks[0].columnName, 0).value;
    next := tables[j := AttachToColumn(tables[j], c, fks[0])];
    assert SameShape(tables, next);
    SameShapeNames(tables, next);
    ScanSameNames(tables, next, fks[1..], j);
    assert forall i :: 0 <= i < |tables| ==> next[i].name == TableNames(next)[i] == TableNames(tables)[i];
  }

  /** When table names are distinct, every key lands: the column it is about
      ends up with its constraint, unless a later key is about the same
      column, in which case the last such key wins. */
  lemma {:induction false} AttachComplete(tables: seq<Tables.Table>, fks: seq<ForeignKeyRow>, k: nat)
    requires k <= |tables| && ScanSucceeds(tables, fks, k) && DistinctNames(tables)
    ensures forall m, i, c :: 0 <= m < |fks| && LastFor(fks, m) && Targets(tables, fks[m], i, c) ==>
              Holds(AttachForeignKeys(tables, fks, k), i, c, fks[m])
    decreases |fks|
  {
    var r := AttachForeignKeys(tables, fks, k);
    assert SameShape(tables, r);
    if fks != [] {
      var j, c0, next := AttachStep(tables, fks, k);
      AttachComplete(next, fks[1..], j);
      forall m, i, c | 0 <= m < |fks| && LastFor(fks, m) && Targets(tables, fks[m], i, c)
        ensures Holds(r, i, c, fks[m])
      {
        assert SameTableBut(tables[i], r[i]);
        if m == 0 {
          assert tables[i].name == tables[j].name;
          assert i == j && c == c0;
          CompleteFirst(tables, fks, k, j, c0, next);
        } else {
          CompleteLater(tables, fks, next, m, i, c);
        }
      }
    }
  }

  /** The first key lands unless a later key is about the same column. */
  lemma CompleteFirst(tables: seq<Tables.Table>, fks: seq<ForeignKeyRow>, k: nat, j: nat, c: nat, next: seq<Tables.Table>)
    requires k <= |tables| && ScanSucceeds(tables, fks, k) && fks != [] && LastFor(fks, 0)
    requires j < |tables| && c < |tables[j].columns|
    requires FindFrom(ColumnNames(tables[j].columns), fks[0].columnName, 0) == Some(c)
    requires next == tables[j := AttachToColumn(tables[j], c, fks[0])]
    requires SameShape(tables, next) && ScanSucceeds(next, fks[1..], j)
    requires AttachForeignKeys(tables, fks, k) == AttachForeignKeys(next, fks[1..], j)
    requires tables[j].name == fks[0].tableName
    ensures c < |AttachForeignKeys(tables, fks, k)[j].columns|
    ensures AttachForeignKeys(tables, fks, k)[j].columns[c].constraint == Some(ConstraintOf(fks[0]))
  {
    var r := AttachForeignKeys(next, fks[1..], j);
    assert SameShape(next, r);
    assert SameTableBut(next[j], r[j]);
    AttachSound(next, fks[1..], j);
    assert next[j].columns[c].name == fks[0].columnName by {
      assert SameTableBut(tables[j], next[j]);
      assert SameColumnBut(tables[j].columns[c], next[j].columns[c]);
      assert ColumnNames(tables[j].columns)[c] == tables[j].columns[c].name;
    }
    forall n | 0 <= n < |fks| - 1
      ensures !SetBy(next[j], next[j].columns[c], fks[1..][n], r[j].columns[c])
    {
      assert fks[1..][n] == fks[n + 1];
    }
    assert r[j].columns[c] == next[j].columns[c];
  }

  /** A later key's landing carries over from the rest of the scan. */
  lemma CompleteLater(tables: seq<Tables.Table>, fks: seq<ForeignKeyRow>, next: seq<Tables.Table>, m: nat, i: int, c: int)
    requires 0 < m < |fks| && LastFor(fks, m) && Targets(tables, fks[m], i, c)
    requires TableNames(next) == TableNames(tables)
    requires forall i :: 0 <= i < |tables| ==> ColumnNames(next[i].columns) == ColumnNames(tables[i].columns)
    ensures fks[1..][m - 1] == fks[m]
    ensures LastFor(fks[1..], m - 1) && Targets(next, fks[1..][m - 1], i, c)
  {
    assert fks[1..][m - 1] == fks[m];
    forall n | m - 1 < n < |fks| - 1
      ensures fks[1..][n].tableName != fks[m].tableName || fks[1..][n].columnName != fks[m].columnName
    {
      assert fks[1..][n] == fks[n + 1];
    }
    assert next[i].name == TableNames(next)[i] == TableNames(tables)[i];
  }

  /** Keys in table order never panic: when table names are distinct, every
      key names an existing table and one of its columns, and the keys' tables
      come in the order of the tables (positions `pos`, none before the
      cursor), the scan succeeds. */
  lemma {:induction false} OrderedScanSucceeds(tables: seq<Tables.Table>, fks: seq<ForeignKeyRow>, k: nat, pos: seq<nat>)
    requires k <= |tables| && DistinctNames(tables)
    requires |pos| == |fks|
    requires forall m :: 0 <= m < |fks| ==>
               && k <= pos[m] < |tables|
               && tables[pos[m]].name == fks[m].tableName
               && fks[m].columnName in ColumnNames(tables[pos[m]].columns)
    requires forall m, n :: 0 <= m < n < |fks| ==> pos[m] <= pos[n]
    ensures ScanSucceeds(tables, fks, k)
    decreases |fks|
  {
    if fks != [] {
      var names := TableNames(tables);
      assert names[pos[0]] == fks[0].tableName;
      var j := FindFrom(names, fks[0].tableName, k);
      assert j.value == pos[0];
      var cols := ColumnNames(tables[pos[0]].columns);
      var n :| 0 <= n < |cols| && cols[n] == fks[0].columnName;
      assert FindFrom(cols, fks[0].columnName, 0).Some?;
      forall m | 0 <= m < |fks| - 1
        ensures pos[0] <= pos[1..][m]
      {
        assert pos[1..][m] == pos[m + 1];
      }
      OrderedScanSucceeds(tables, fks[1..], pos[0], pos[1..]);
    }
  }

  /** And only keys in table order avoid the panic: when table names are
      distinct and the scan succeeds, no key's table lies before the cursor
      and each key's table lies at or after the previous key's. */
  lemma {:induction false} ScanNeedsOrder(tables: seq<Tables.Table>, fks: seq<ForeignKeyRow>, k: nat)
    requires k <= |tables| && ScanSucceeds(tables, fks, k) && DistinctNames(tables)
    ensures forall m, i :: 0 <= m < |fks| && 0 <= i < |tables| && tables[i].name == fks[m].tableName ==> k <= i
    ensures forall m, i, i2 ::
              (&& 0 < m < |fks| && 0 <= i < |tables| && 0 <= i2 < |tables|
               && tables[i].name == fks[m - 1].tableName && tables[i2].name == fks[m].tableName) ==> i <= i2
    decreases |fks|
  {
    if fks != [] {
      var names := TableNames(tables);
      var j := FindFrom(names, fks[0].tableName, k).value;
      assert tables[j].name == fks[0].tableName;
      ScanNeedsOrder(tables, fks[1..], j);
      forall m | 0 <= m < |fks| - 1
        ensures fks[1..][m] == fks[m + 1]
      {
      }
    }
  }
}

=== FILE: generated.dfy ===
/** Generated columns: `GENERATED {ALWAYS | BY DEFAULT} AS IDENTITY` and
    `GENERATED {ALWAYS | BY DEFAULT} AS <expr> STORED`. */
module GeneratedColumns {
  import opened Wrappers
  import opened Util
  import SqlTypes

  datatype GenerationTime = Always | ByDefault

  datatype GenerationValue = Identity | Expr(expr: SqlTypes.Expr)

  datatype Generated = Generated(time: GenerationTime, value: GenerationValue)

  /** The keyword for a generation time, as written in DDL and as the catalog
      reports it. */
  function TimeKeyword(t: GenerationTime): (r: string) {
    match t
    case Always => "ALWAYS"
    case ByDefault => "BY DEFAULT"
  }

  /** `Generated::write_sql`. The expression is written by `renderExpr`, the
      expression renderer for the dialect, and is not parenthesised. */
  function WriteSql(buf: string, g: Generated, dialect: SqlTypes.Dialect,
                    renderExpr: (SqlTypes.Expr, SqlTypes.Dialect) -> string): (r: string)
    ensures buf <= r
  {
    var b0 := buf + "GENERATED ";
    var b1 := match g.time
      case Always => b0 + "ALWAYS "
      case ByDefault => b0 + "BY DEFAULT ";
    var b2 := b1 + "AS ";
    var r := match g.value
      case Identity => b2 + "IDENTITY"
      case Expr(e) => PushSql(b2, e, x => renderExpr(x, dialect)) + " STORED";
    r
  }

  /** What a rendered clause says: its time, and either identity or the text of
      the stored expression. */
  datatype Clause = IdentityClause(time: GenerationTime) | StoredClause(time: GenerationTime, exprSql: string)

  /** The clause a generated spec renders to. */
  function ClauseOf(g: Generated, dialect: SqlTypes.Dialect,
                    renderExpr: (SqlTypes.Expr, SqlTypes.Dialect) -> string): (r: Clause) {
    match g.value
    case Identity => IdentityClause(g.time)
    case Expr(e) => StoredClause(g.time, renderExpr(e, dialect))
  }

  /** The part after `AS `. */
  function Body(g: Generated, dialect: SqlTypes.Dialect,
                renderExpr: (SqlTypes.Expr, SqlTypes.Dialect) -> string): (r: string) {
    match g.value
    case Identity => "IDENTITY"
    case Expr(e) => renderExpr(e, dialect) + " STORED"
  }

  function Layout(t: GenerationTime, body: string): (r: string) {
    "GENERATED " + TimeKeyword(t) + " AS " + body
  }

  /** Reads a generation-time keyword and the space after it. */
  function ReadTime(text: string): (r: Option<(GenerationTime, string)>) {
    if "ALWAYS " <= text then Some((Always, text[7..]))
    else if "BY DEFAULT " <= text then Some((ByDefault, text[11..]))
    else None
  }

  /** Reads what follows `AS `: identity, or an expression ended by ` STORED`. */
  function ReadBody(time: GenerationTime, body: string): (r: Option<Clause>) {
    if body == "IDENTITY" then Some(IdentityClause(time))
    else if EndsWith(body, " STORED") then Some(StoredClause(time, body[..|body| - 7]))
    else None
  }

  /** Reads a rendered generated-column clause back. */
  function ReadClause(text: string): (r: Option<Clause>) {
    if !("GENERATED " <= text) then None
    else
      var timed := ReadTime(text[10..]);
      if timed.None? || !("AS " <= timed.value.1) then None
      else ReadBody(timed.value.0, timed.value.1[3..])
  }

  /** The layout with the time keyword written out. */
  lemma LayoutOf(t: GenerationTime, body: string)
    ensures t == Always ==> Layout(t, body) == "GENERATED ALWAYS AS " + body
    ensures t == ByDefault ==> Layout(t, body) == "GENERATED BY DEFAULT AS " + body
  {
    var kw := TimeKeyword(t);
    Assoc("GENERATED " + kw, " AS ", body);
    Assoc("GENERATED ", kw, " AS " + body);
    Assoc("GENERATED ", kw, " AS ");
  }

  lemma LayoutPrefixes(t: GenerationTime, body: string)
    ensures "GENERATED " <= Layout(t, body)
    ensures Layout(t, body)[10..] == TimeKeyword(t) + " " + ("AS " + body)
    ensures t == Always <==> "GENERATED ALWAYS AS " <= Layout(t, body)
    ensures t == ByDefault <==> "GENERATED BY DEFAULT AS " <= Layout(t, body)
  {
    var text := Layout(t, body);
    var kw := TimeKeyword(t);
    LayoutOf(t, body);
    assert text[10..] == kw + " " + ("AS " + body) by {
      assert text == "GENERATED " + (kw + " AS " + body) by {
        Assoc("GENERATED ", kw, " AS ");
        Assoc("GENERATED ", kw + " AS ", body);
      }
      Assoc(kw, " ", "AS ");
      Assoc(kw + " ", "AS ", body);
    }
    match t {
      case Always =>
        assert text[10] == 'A';
      case ByDefault =>
        assert text[10] == 'B';
    }
  }

  lemma ReadTimeKeyword(t: GenerationTime, rest: string)
    ensures ReadTime(TimeKeyword(t) + " " + rest) == Some((t, rest))
  {
    var text := TimeKeyword(t) + " " + rest;
    match t {
      case Always =>
        assert text == "ALWAYS " + rest;
      case ByDefault =>
        assert text == "BY DEFAULT " + rest;
        assert text[0] == 'B';
    }
  }

  /** Only an expression body ends with ` STORED`, and it reads back as the
      expression's text. */
  lemma ReadBodyOf(g: Generated, dialect: SqlTypes.Dialect,
                   renderExpr: (SqlTypes.Expr, SqlTypes.Dialect) -> string)
    ensures EndsWith(Body(g, dialect, renderExpr), " STORED") <==> g.value.Expr?
    ensures ReadBody(g.time, Body(g, dialect, renderExpr)) == Some(ClauseOf(g, dialect, renderExpr))
  {
    var body := Body(g, dialect, renderExpr);
    match g.value {
      case Identity =>
        assert body[|body| - 7..][0] == 'D';
      case Expr(e) =>
        var s := renderExpr(e, dialect);
        assert body[..|body| - 7] == s;
    }
  }

  lemma ReadLayout(t: GenerationTime, body: string)
    ensures ReadClause(Layout(t, body)) == ReadBody(t, body)
  {
    LayoutPrefixes(t, body);
    ReadTimeKeyword(t, "AS " + body);
    assert ("AS " + body)[3..] == body;
  }

  lemma WriteSqlLayout(buf: string, g: Generated, dialect: SqlTypes.Dialect,
                       renderExpr: (SqlTypes.Expr, SqlTypes.Dialect) -> string)
    ensures WriteSql(buf, g, dialect, renderExpr) == buf + Layout(g.time, Body(g, dialect, renderExpr))
  {
    var body := Body(g, dialect, renderExpr);
    var head := "GENERATED " + TimeKeyword(g.time) + " AS ";
    var b2 := match g.time
      case Always => buf + "GENERATED " + "ALWAYS " + "AS "
      case ByDefault => buf + "GENERATED " + "BY DEFAULT " + "AS ";
    assert b2 == buf + head;
    assert WriteSql(buf, g, dialect, renderExpr) == b2 + body by {
      match g.value {
        case Identity =>
        case Expr(e) =>
          Assoc(b2, renderExpr(e, dialect), " STORED");
      }
    }
    Assoc(buf, head, body);
  }

  /** The layout ends with ` STORED` exactly when its body does. */
  lemma LayoutEnds(t: GenerationTime, body: string, suffix: string)
    requires |suffix| <= |body|
    ensures EndsWith(Layout(t, body), suffix) <==> EndsWith(body, suffix)
  {
    EndsWithAppend(" AS ", body, suffix);
    EndsWithAppend(TimeKeyword(t), " AS " + body, suffix);
    EndsWithAppend("GENERATED ", TimeKeyword(t) + (" AS " + body), suffix);
  }

  /** The rendered clause starts with `GENERATED `, then the time keyword
      (`ALWAYS ` exactly when the time is `Always`), then `AS `; an identity
      clause ends right after `IDENTITY`, and exactly the expression clauses
      end with ` STORED`. */
  lemma WriteSqlShape(buf: string, g: Generated, dialect: SqlTypes.Dialect,
                      renderExpr: (SqlTypes.Expr, SqlTypes.Dialect) -> string)
    ensures var r := WriteSql(buf, g, dialect, renderExpr);
      && "GENERATED " <= r[|buf|..]
      && (g.time == Always <==> "GENERATED ALWAYS AS " <= r[|buf|..])
      && (g.time == ByDefault <==> "GENERATED BY DEFAULT AS " <= r[|buf|..])
      && (g.value.Identity? ==> r[|buf|..] == "GENERATED " + TimeKeyword(g.time) + " AS IDENTITY")
      && (g.value.Expr? <==> EndsWith(r, " STORED"))
  {
    var r := WriteSql(buf, g, dialect, renderExpr);
    var body := Body(g, dialect, renderExpr);
    var text := Layout(g.time, body);
    WriteSqlLayout(buf, g, dialect, renderExpr);
    assert r[|buf|..] == text;
    LayoutPrefixes(g.time, body);
    if g.value.Identity? {
      assert text == "GENERATED " + TimeKeyword(g.time) + " AS IDENTITY" by {
        Assoc("GENERATED ", TimeKeyword(g.time), " AS IDENTITY");
        assert " AS " + body == " AS IDENTITY";
      }
    }
    assert g.value.Expr? <==> EndsWith(r, " STORED") by {
      ReadBodyOf(g, dialect, renderExpr);
      LayoutEnds(g.time, body, " STORED");
      EndsWithAppend(buf, text, " STORED");
    }
  }

  /** Every rendered clause reads back as its time and value, the expression
      as the text its renderer produced. */
  lemma ClauseRoundTrip(buf: string, g: Generated, dialect: SqlTypes.Dialect,
                        renderExpr: (SqlTypes.Expr, SqlTypes.Dialect) -> string)
    ensures ReadClause(WriteSql(buf, g, dialect, renderExpr)[|buf|..]) == Some(ClauseOf(g, dialect, renderExpr))
  {
    var body := Body(g, dialect, renderExpr);
    WriteSqlLayout(buf, g, dialect, renderExpr);
    assert WriteSql(buf, g, dialect, renderExpr)[|buf|..] == Layout(g.time, body);
    ReadLayout(g.time, body);
    ReadBodyOf(g, dialect, renderExpr);
  }

  /** An identity clause does not depend on the dialect, nor on how
      expressions would be rendered. */
  lemma IdentityIgnoresDialect(buf: string, g: Generated, d1: SqlTypes.Dialect, d2: SqlTypes.Dialect,
                               re1: (SqlTypes.Expr, SqlTypes.Dialect) -> string,
                               re2: (SqlTypes.Expr, SqlTypes.Dialect) -> string)
    requires g.value.Identity?
    ensures WriteSql(buf, g, d1, re1) == WriteSql(buf, g, d2, re2)
  {
  }
}

=== FILE: grouping.dfy ===
/** Building tables from the column catalog rows: the rows are split into
    maximal runs of consecutive rows of one table (`chunk_by`), each run's
    rows are converted into that table's columns, and the first conversion
    error aborts the whole result. */
module TableGrouping {
  import opened Wrappers
  import opened CatalogRows
  import SqlTypes
  import Tables
  import Util

  function Flatten<T>(ss: seq<seq<T>>): seq<T>
    decreases |ss|
  {
    if ss == [] then [] else ss[0] + Flatten(ss[1..])
  }

  /** A nonempty run of rows of one table. */
  predicate IsRun(chunk: seq<ColumnRow>) {
    |chunk| > 0 && forall i :: 0 <= i < |chunk| ==> chunk[i].tableName == chunk[0].tableName
  }

  /** The table name of a run. */
  function Key(chunk: seq<ColumnRow>): string
    requires |chunk| > 0
  {
    chunk[0].tableName
  }

  /** Runs that cannot be merged: neighbours belong to different tables. */
  predicate MaximalRuns(chunks: seq<seq<ColumnRow>>) {
    && (forall i :: 0 <= i < |chunks| ==> IsRun(chunks[i]))
    && (forall i :: 0 < i < |chunks| ==> Key(chunks[i - 1]) != Key(chunks[i]))
  }

  /** `chunk_by(|c| c.table_name)`: splits the rows, in order, into maximal
      runs of one table. */
  function ChunkByTable(rows: seq<ColumnRow>): (r: seq<seq<ColumnRow>>)
    ensures Flatten(r) == rows
    ensures MaximalRuns(r)
    ensures rows != [] ==> r != [] && Key(r[0]) == rows[0].tableName
    decreases |rows|
  {
    if rows == [] then []
    else
      var rest := ChunkByTable(rows[1..]);
      assert rows == [rows[0]] + rows[1..];
      if rest != [] && Key(rest[0]) == rows[0].tableName then
        JoinFirstRun(rows[0], rest);
        [[rows[0]] + rest[0]] + rest[1..]
      else
        StartNewRun(rows[0], rest);
        [[rows[0]]] + rest
  }

  /** A row of the first run's table extends that run. */
  lemma JoinFirstRun(x: ColumnRow, rest: seq<seq<ColumnRow>>)
    requires MaximalRuns(rest) && rest != [] && Key(rest[0]) == x.tableName
    ensures MaximalRuns([[x] + rest[0]] + rest[1..])
    ensures Flatten([[x] + rest[0]] + rest[1..]) == [x] + Flatten(rest)
  {
    var r := [[x] + rest[0]] + rest[1..];
    JoinedRuns(x, rest, r);
    JoinedKeys(x, rest, r);
    JoinedFlatten(x, rest, r);
  }

  lemma JoinedFlatten(x: ColumnRow, rest: seq<seq<ColumnRow>>, r: seq<seq<ColumnRow>>)
    requires rest != [] && r == [[x] + rest[0]] + rest[1..]
    ensures Flatten(r) == [x] + Flatten(rest)
  {
    assert r[1..] == rest[1..];
    assert Flatten(r) == ([x] + rest[0]) + Flatten(rest[1..]);
    assert Flatten(rest) == rest[0] + Flatten(rest[1..]);
    Util.Assoc([x], rest[0], Flatten(rest[1..]));
  }

  lemma JoinedRuns(x: ColumnRow, rest: seq<seq<ColumnRow>>, r: seq<seq<ColumnRow>>)
    requires MaximalRuns(rest) && rest != [] && Key(rest[0]) == x.tableName
    requires r == [[x] + rest[0]] + rest[1..]
    ensures forall i :: 0 <= i < |r| ==> IsRun(r[i])
  {
    forall i | 0 <= i < |r|
      ensures IsRun(r[i])
    {
      if i == 0 {
        assert IsRun(rest[0]);
        assert forall k :: 1 <= k < |r[0]| ==> r[0][k] == rest[0][k - 1];
      } else {
        assert r[i] == rest[i];
        assert IsRun(rest[i]);
      }
    }
  }

  lemma JoinedKeys(x: ColumnRow, rest: seq<seq<ColumnRow>>, r: seq<seq<ColumnRow>>)
    requires MaximalRuns(rest) && rest != [] && Key(rest[0]) == x.tableName
    requires r == [[x] + rest[0]] + rest[1..]
    requires forall i :: 0 <= i < |r| ==> IsRun(r[i])
    ensures forall i :: 0 < i < |r| ==> Key(r[i - 1]) != Key(r[i])
  {
    forall i | 0 <= i < |rest|
      ensures |rest[i]| > 0
    {
      assert IsRun(rest[i]);
    }
    forall i | 0 < i < |r|
      ensures Key(r[i - 1]) != Key(r[i])
    {
      assert r[i] == rest[i];
      assert Key(r[i - 1]) == Key(rest[i - 1]);
    }
  }

  /** A row of another table starts a run of its own. */
  lemma StartNewRun(x: ColumnRow, rest: seq<seq<ColumnRow>>)
    requires MaximalRuns(rest) && (rest == [] || Key(rest[0]) != x.tableName)
    ensures MaximalRuns([[x]] + rest)
    ensures Flatten([[x]] + rest) == [x] + Flatten(rest)
  {
    var r := [[x]] + rest;
    assert r[1..] == rest;
    assert forall i :: 1 <= i < |r| ==> r[i] == rest[i - 1];
  }

  lemma MaximalRunsTail(a: seq<seq<ColumnRow>>)
    requires MaximalRuns(a) && a != []
    ensures MaximalRuns(a[1..])
  {
    assert forall i :: 0 <= i < |a| - 1 ==> a[1..][i] == a[i + 1];
  }

  /** The first run is the longest prefix of the rows that stays in one
      table. */
  lemma FirstRunBounds(a: seq<seq<ColumnRow>>)
    requires MaximalRuns(a) && a != []
    ensures |a[0]| <= |Flatten(a)|
    ensures forall i :: 0 <= i < |a[0]| ==> Flatten(a)[i].tableName == Key(a[0])
    ensures |a[0]| < |Flatten(a)| ==> Flatten(a)[|a[0]|].tableName != Key(a[0])
  {
    assert Flatten(a) == a[0] + Flatten(a[1..]);
    assert IsRun(a[0]);
    if |a| > 1 {
      assert Flatten(a[1..]) == a[1] + Flatten(a[2..]) by {
        assert a[1..][1..] == a[2..];
      }
      assert IsRun(a[1]);
    } else {
      assert a[1..] == [];
    }
  }

  /** A split into maximal runs is unique. */
  lemma {:induction false} MaximalRunsUnique(a: seq<seq<ColumnRow>>, b: seq<seq<ColumnRow>>)
    requires MaximalRuns(a) && MaximalRuns(b)
    requires Flatten(a) == Flatten(b)
    ensures a == b
    decreases |a|
  {
    if a != [] && b != [] {
      var s := Flatten(a);
      assert s == a[0] + Flatten(a[1..]);
      assert s == b[0] + Flatten(b[1..]);
      FirstRunBounds(a);
      FirstRunBounds(b);
      assert a[0][0] == s[0] == b[0][0];
      assert |a[0]| == |b[0]|;
      assert a[0] == s[..|a[0]|] == b[0];
      assert Flatten(a[1..]) == s[|a[0]|..] == Flatten(b[1..]);
      MaximalRunsTail(a);
      MaximalRunsTail(b);
      MaximalRunsUnique(a[1..], b[1..]);
      assert a == [a[0]] + a[1..];
      assert b == [b[0]] + b[1..];
    }
  }

  /** `ChunkByTable` is the one split of the rows into maximal runs. */
  lemma ChunkByTableIsTheSplit(rows: seq<ColumnRow>, chunks: seq<seq<ColumnRow>>)
    requires MaximalRuns(chunks) && Flatten(chunks) == rows
    ensures chunks == ChunkByTable(rows)
  {
    MaximalRunsUnique(chunks, ChunkByTable(rows));
  }

  /** The columns of all tables, table after table. */
  function AllColumns(tables: seq<Tables.Table>): seq<Tables.Column>
    decreases |tables|
  {
    if tables == [] then [] else tables[0].columns + AllColumns(tables[1..])
  }

  /** Table `t` is the one built from run `chunk`: it has the run's table
      name, the schema being read, no indexes, and the run's rows converted
      in order as its columns. */
  predicate BuiltFrom(t: Tables.Table, chunk: seq<ColumnRow>, schemaName: string, fromStr: string -> Result<SqlTypes.Type>)
    requires |chunk| > 0
  {
    && t.schema == Some(schemaName)
    && t.name == Key(chunk)
    && t.indexes == []
    && NoPanic(chunk, fromStr)
    && ConvertRows(chunk, fromStr) == Success(t.columns)
  }

  /** One table per run, or the first conversion error over all the rows. */
  function BuildTables(chunks: seq<seq<ColumnRow>>, schemaName: string, fromStr: string -> Result<SqlTypes.Type>)
    : (r: Result<seq<Tables.Table>>)
    requires forall i :: 0 <= i < |chunks| ==> |chunks[i]| > 0
    requires NoPanic(Flatten(chunks), fromStr)
    ensures r.Success? ==> |r.value| == |chunks|
    ensures r.Success? ==> forall i :: 0 <= i < |chunks| ==> BuiltFrom(r.value[i], chunks[i], schemaName, fromStr)
    ensures r.Success? <==> ConvertRows(Flatten(chunks), fromStr).Success?
    ensures r.Failure? ==> r.error == ConvertRows(Flatten(chunks), fromStr).error
    ensures r.Success? ==> AllColumns(r.value) == ConvertRows(Flatten(chunks), fromStr).value
    decreases |chunks|
  {
    if chunks == [] then Success([])
    else
      ConvertRowsAppend(chunks[0], Flatten(chunks[1..]), fromStr);
      var columns :- ConvertRows(chunks[0], fromStr);
      var rest :- BuildTables(chunks[1..], schemaName, fromStr);
      var t := Tables.Table(Some(schemaName), Key(chunks[0]), columns, []);
      assert ([t] + rest)[1..] == rest;
      Success([t] + rest)
  }

  /** The tables read from the column catalog (the `chunk_by` pipeline of
      `try_from_postgres`): every table lies in the schema being read, has at
      least one column and no indexes, and differs in name from its
      neighbours; the columns of all tables are the converted rows in order;
      and a single failing row fails the whole result with its error. */
  function TablesFromRows(rows: seq<ColumnRow>, schemaName: string, fromStr: string -> Result<SqlTypes.Type>)
    : (r: Result<seq<Tables.Table>>)
    requires NoPanic(rows, fromStr)
    ensures r.Success? <==> ConvertRows(rows, fromStr).Success?
    ensures r.Failure? ==> r.error == ConvertRows(rows, fromStr).error
    ensures r.Success? ==> AllColumns(r.value) == ConvertRows(rows, fromStr).value
    ensures r.Success? ==> forall i :: 0 <= i < |r.value| ==>
              && r.value[i].schema == Some(schemaName)
              && r.value[i].indexes == []
              && |r.value[i].columns| > 0
    ensures r.Success? ==> forall i :: 0 < i < |r.value| ==> r.value[i - 1].name != r.value[i].name
    ensures r.Success? ==> |r.value| == |ChunkByTable(rows)|
    ensures r.Success? ==> forall i :: 0 <= i < |r.value| ==>
              BuiltFrom(r.value[i], ChunkByTable(rows)[i], schemaName, fromStr)
  {
    var chunks := ChunkByTable(rows);
    assert forall i :: 0 <= i < |chunks| ==> IsRun(chunks[i]);
    BuildTables(chunks, schemaName, fromStr)
  }
}

=== FILE: index.dfy ===
/** Indexes and their `CREATE [UNIQUE] <name> ON <table> USING <method> (<columns>)`
    statement. As written, the statement has no `INDEX` keyword, and the
    default B-tree method is written as nothing at all, leaving two spaces in
    `USING  (`. */
module Indexes {
  import opened Wrappers
  import opened Util
  import SqlTypes

  datatype IndexKind = BTree | Hash | Gist | SpGist | Brin | Other(kind: string)

  /** `IndexKind::default()`: B-tree, the kind that writes no method text and
      the one an empty method text reads back as. */
  function DefaultKind(): (k: IndexKind)
    ensures k.BTree?
    ensures MethodName(k) == "" && ReadKind("") == k
  {
    BTree
  }

  datatype Index = Index(
    name: string,
    unique: bool,
    schema: Option<string>,
    table: string,
    columns: seq<string>,
    kind: IndexKind)

  /** Every identifier of the index goes through quoting, which panics on a
      double quote, so rendering needs all of them quotable. */
  predicate Writable(idx: Index) {
    && Quotable(idx.name)
    && Quotable(idx.table)
    && (idx.schema.Some? ==> Quotable(idx.schema.value))
    && forall c :: c in idx.columns ==> Quotable(c)
  }

  /** The text written after `USING ` for each kind. */
  function MethodName(k: IndexKind): string {
    match k
    case BTree => ""
    case Hash => "HASH"
    case Gist => "GIST"
    case SpGist => "SPGIST"
    case Brin => "BRIN"
    case Other(m) => m
  }

  /** `Index::write_sql`; the dialect is not consulted. */
  function WriteSql(buf: string, idx: Index, dialect: SqlTypes.Dialect): (r: string)
    requires Writable(idx)
    ensures buf <= r
  {
    var b0 := buf + "CREATE ";
    var b1 := if idx.unique then b0 + "UNIQUE " else b0;
    var b2 := PushQuoted(b1, idx.name);
    var b3 := b2 + " ON ";
    var b4 := PushTableName(b3, idx.schema, idx.table);
    var b5 := b4 + " USING ";
    var b6 := b5 + MethodName(idx.kind);
    var b7 := b6 + " (";
    var b8 := PushQuotedSequence(b7, idx.columns, ", ");
    b8 + ")"
  }

  function UniqueWord(unique: bool): (r: string) {
    if unique then "UNIQUE " else ""
  }

  /** The part from ` USING ` to the end. */
  function Tail(idx: Index): (r: string) {
    " USING " + MethodName(idx.kind) + " (" + Join(idx.columns, Quote, ", ") + ")"
  }

  /** The part from ` ON ` to the end. */
  function Rest(idx: Index): (r: string) {
    " ON " + (TableName(idx.schema, idx.table) + Tail(idx))
  }

  /** The statement as one concatenation. */
  function Text(idx: Index): (r: string) {
    "CREATE " + (UniqueWord(idx.unique) + (Quote(idx.name) + Rest(idx)))
  }

  lemma TailAppends(b4: string, idx: Index)
    requires Writable(idx)
    ensures PushQuotedSequence(b4 + " USING " + MethodName(idx.kind) + " (", idx.columns, ", ") + ")"
         == b4 + Tail(idx)
  {
    var open := " USING " + MethodName(idx.kind) + " (";
    var j := Join(idx.columns, Quote, ", ");
    var b7 := b4 + " USING " + MethodName(idx.kind) + " (";
    assert PushQuotedSequence(b7, idx.columns, ", ") == b7 + j;
    Assoc(b4, " USING ", MethodName(idx.kind));
    Assoc(b4, " USING " + MethodName(idx.kind), " (");
    assert b7 == b4 + open;
    Assoc(b4, open, j);
    Assoc(b4, open + j, ")");
  }

  lemma HeadAppends(buf: string, idx: Index)
    requires Writable(idx)
    ensures (var b1 := if idx.unique then buf + "CREATE " + "UNIQUE " else buf + "CREATE ";
             PushTableName(PushQuoted(b1, idx.name) + " ON ", idx.schema, idx.table) + Tail(idx)
             == buf + Text(idx))
  {
    var tn := TableName(idx.schema, idx.table);
    var b0 := buf + "CREATE ";
    var b1 := if idx.unique then b0 + "UNIQUE " else b0;
    assert b1 == b0 + UniqueWord(idx.unique);
    var b2 := PushQuoted(b1, idx.name);
    PushQuotedAppends(b1, idx.name);
    var b3 := b2 + " ON ";
    PushTableNameAppends(b3, idx.schema, idx.table);
    assert PushTableName(b3, idx.schema, idx.table) + Tail(idx) == b2 + Rest(idx) by {
      Assoc(b2, " ON ", tn);
      Assoc(b2 + " ON ", tn, Tail(idx));
      Assoc(b2, " ON ", tn + Tail(idx));
    }
    assert b2 + Rest(idx) == b0 + (UniqueWord(idx.unique) + (Quote(idx.name) + Rest(idx))) by {
      Assoc(b1, Quote(idx.name), Rest(idx));
      Assoc(b0, UniqueWord(idx.unique), Quote(idx.name) + Rest(idx));
    }
    Assoc(buf, "CREATE ", UniqueWord(idx.unique) + (Quote(idx.name) + Rest(idx)));
  }

  lemma WriteSqlLayout(buf: string, idx: Index, dialect: SqlTypes.Dialect)
    requires Writable(idx)
    ensures WriteSql(buf, idx, dialect) == buf + Text(idx)
  {
    var b1 := if idx.unique then buf + "CREATE " + "UNIQUE " else buf + "CREATE ";
    var b4 := PushTableName(PushQuoted(b1, idx.name) + " ON ", idx.schema, idx.table);
    assert WriteSql(buf, idx, dialect)
        == PushQuotedSequence(b4 + " USING " + MethodName(idx.kind) + " (", idx.columns, ", ") + ")";
    TailAppends(b4, idx);
    HeadAppends(buf, idx);
  }

  /** A kind whose method text cannot be mistaken for another kind's, nor for
      the `(` that opens the column list. */
  predicate Canonical(k: IndexKind) {
    k.Other? ==>
      && k.kind !in {"", "HASH", "GIST", "SPGIST", "BRIN"}
      && '(' !in k.kind
  }

  /** Reads the method text back as a kind. */
  function ReadKind(text: string): (r: IndexKind) {
    if text == "" then BTree
    else if text == "HASH" then Hash
    else if text == "GIST" then Gist
    else if text == "SPGIST" then SpGist
    else if text == "BRIN" then Brin
    else Other(text)
  }

  lemma ReadKindOf(k: IndexKind)
    requires Canonical(k)
    ensures ReadKind(MethodName(k)) == k
    ensures '(' !in MethodName(k)
  {
  }

  /** An `Other` kind can be written exactly like a built-in one, so two
      different indexes can render to the same statement. */
  lemma OtherKindCanAlias(idx: Index, dialect: SqlTypes.Dialect)
    requires Writable(idx) && idx.kind == Hash
    ensures WriteSql("", idx, dialect) == WriteSql("", idx.(kind := Other("HASH")), dialect)
    ensures WriteSql("", idx.(kind := BTree), dialect) == WriteSql("", idx.(kind := Other("")), dialect)
  {
    WriteSqlLayout("", idx, dialect);
    WriteSqlLayout("", idx.(kind := Other("HASH")), dialect);
    WriteSqlLayout("", idx.(kind := BTree), dialect);
    WriteSqlLayout("", idx.(kind := Other("")), dialect);
  }

  /** Reads the column list: `)` alone for no columns, otherwise quoted
      names separated by `, `. */
  function ReadColumnList(text: string): (r: Option<(seq<string>, string)>) {
    if |text| > 0 && text[0] == ')' then Some(([], text))
    else ReadQuotedItems(text)
  }

  /** Reads the part from ` USING ` to the end: the kind and the columns. */
  function ReadTail(text: string): (r: Option<(IndexKind, seq<string>)>) {
    if !(" USING " <= text) then None
    else
      var split := SplitAt(text[7..], '(');
      var before := split.0;
      var after := split.1;
      if |after| == 0 || |before| == 0 || before[|before| - 1] != ' ' then None
      else
        var cols := ReadColumnList(after[1..]);
        if cols.None? || cols.value.1 != ")" then None
        else Some((ReadKind(before[..|before| - 1]), cols.value.0))
  }

  /** Reads a rendered index statement back. */
  function ReadIndex(text: string): (r: Option<Index>) {
    if !("CREATE " <= text) then None
    else
      var t1 := text[7..];
      var unique := "UNIQUE " <= t1;
      var t2 := if unique then t1[7..] else t1;
      var name := ReadQuoted(t2);
      if name.None? || !(" ON " <= name.value.1) then None
      else
        var table := ReadTableName(name.value.1[4..]);
        if table.None? then None
        else
          var tail := ReadTail(table.value.2);
          if tail.None? then None
          else Some(Index(name.value.0, unique, table.value.0, table.value.1, tail.value.1, tail.value.0))
  }

  lemma ColumnListRoundTrip(columns: seq<string>)
    requires forall c :: c in columns ==> Quotable(c)
    ensures ReadColumnList(Join(columns, Quote, ", ") + ")") == Some((columns, ")"))
  {
    if |columns| == 0 {
      assert Join(columns, Quote, ", ") + ")" == ")";
    } else {
      JoinEnds(columns, Quote, ", ");
      assert Join(columns, Quote, ", ")[0] == QuoteChar;
      QuotedItemsRoundTrip(columns, ")");
    }
  }

  lemma TailRoundTrip(idx: Index)
    requires Writable(idx) && Canonical(idx.kind)
    ensures ReadTail(Tail(idx)) == Some((idx.kind, idx.columns))
  {
    var m := MethodName(idx.kind);
    var j := Join(idx.columns, Quote, ", ");
    var text := Tail(idx);
    assert text[7..] == (m + " ") + ['('] + (j + ")");
    ReadKindOf(idx.kind);
    SplitAtPrefix(m + " ", '(', j + ")");
    var after := ['('] + (j + ")");
    assert after[1..] == j + ")";
    assert (m + " ")[..|m + " "| - 1] == m;
    ColumnListRoundTrip(idx.columns);
  }

  /** What follows the quoted index name reads back as the table and the
      tail. */
  lemma RestRoundTrip(idx: Index)
    requires Writable(idx) && Canonical(idx.kind)
    ensures " ON " <= Rest(idx)
    ensures ReadTableName(Rest(idx)[4..]) == Some((idx.schema, idx.table, Tail(idx)))
  {
    assert Rest(idx)[4..] == TableName(idx.schema, idx.table) + Tail(idx);
    TableNameRoundTrip(idx.schema, idx.table, Tail(idx));
  }

  /** After `CREATE `: `UNIQUE ` exactly for a unique index, then the quoted
      name. */
  lemma UniqueWordRead(idx: Index)
    ensures var t1 := Text(idx)[7..];
            && ("UNIQUE " <= t1 <==> idx.unique)
            && (if idx.unique then t1[7..] else t1) == Quote(idx.name) + Rest(idx)
  {
    var named := Quote(idx.name) + Rest(idx);
    var t1 := Text(idx)[7..];
    assert t1 == UniqueWord(idx.unique) + named;
    if idx.unique {
      assert t1 == "UNIQUE " + named;
    } else {
      assert t1 == named;
      assert t1[0] == QuoteChar;
    }
  }

  lemma ReadText(idx: Index)
    requires Writable(idx) && Canonical(idx.kind)
    ensures ReadIndex(Text(idx)) == Some(idx)
  {
    UniqueWordRead(idx);
    QuotedRoundTrip(idx.name, Rest(idx));
    RestRoundTrip(idx);
    TailRoundTrip(idx);
  }

  /** A statement written for an index with a canonical kind reads back as
      exactly that index: the quoting keeps every identifier apart from the
      surrounding keywords. */
  lemma IndexRoundTrip(buf: string, idx: Index, dialect: SqlTypes.Dialect)
    requires Writable(idx) && Canonical(idx.kind)
    ensures ReadIndex(WriteSql(buf, idx, dialect)[|buf|..]) == Some(idx)
  {
    WriteSqlLayout(buf, idx, dialect);
    assert WriteSql(buf, idx, dialect)[|buf|..] == Text(idx);
    ReadText(idx);
  }

  /** The statement starts with `CREATE `, has `UNIQUE ` right after it exactly
      when the index is unique, and ends with ` USING `, the kind's method
      text (nothing for B-tree), and the quoted, `, `-separated columns in
      parentheses. */
  lemma WriteSqlShape(buf: string, idx: Index, dialect: SqlTypes.Dialect)
    requires Writable(idx)
    ensures var r := WriteSql(buf, idx, dialect);
      && "CREATE " <= r[|buf|..]
      && (idx.unique <==> "CREATE UNIQUE " <= r[|buf|..])
      && EndsWith(r, " USING " + MethodName(idx.kind) + " (" + Join(idx.columns, Quote, ", ") + ")")
      && r[|r| - 1] == ')'
  {
    WriteSqlLayout(buf, idx, dialect);
    var r := WriteSql(buf, idx, dialect);
    assert r[|buf|..] == Text(idx);
    TextPrefixes(idx);
    TextEnds(idx);
    EndsWithAppend(buf, Text(idx), Tail(idx));
    assert Tail(idx)[|Tail(idx)| - 1] == ')';
  }

  lemma TextPrefixes(idx: Index)
    ensures "CREATE " <= Text(idx)
    ensures idx.unique <==> "CREATE UNIQUE " <= Text(idx)
  {
    var x := UniqueWord(idx.unique) + (Quote(idx.name) + Rest(idx));
    assert Text(idx) == "CREATE " + x;
    assert "UNIQUE " <= x <==> idx.unique by {
      assert Text(idx)[7..] == x;
      UniqueWordRead(idx);
    }
    assert "CREATE UNIQUE " <= "CREATE " + x <==> "UNIQUE " <= x by {
      assert "CREATE UNIQUE " == "CREATE " + "UNIQUE ";
      PrefixAfter("CREATE ", "UNIQUE ", x);
    }
  }

  lemma TextEnds(idx: Index)
    ensures EndsWith(Text(idx), Tail(idx))
  {
    var tail := Tail(idx);
    var tn := TableName(idx.schema, idx.table);
    EndsWithAppend(tn, tail, tail);
    EndsWithAppend(" ON ", tn + tail, tail);
    EndsWithAppend(Quote(idx.name), Rest(idx), tail);
    EndsWithAppend(UniqueWord(idx.unique), Quote(idx.name) + Rest(idx), tail);
    EndsWithAppend("CREATE ", UniqueWord(idx.unique) + (Quote(idx.name) + Rest(idx)), tail);
  }

  /** With the default kind the method text is empty, giving `USING  (`. */
  lemma DefaultKindWritesNoMethod(buf: string, idx: Index, dialect: SqlTypes.Dialect)
    requires Writable(idx) && idx.kind == DefaultKind()
    ensures EndsWith(WriteSql(buf, idx, dialect), " USING  (" + Join(idx.columns, Quote, ", ") + ")")
  {
    WriteSqlLayout(buf, idx, dialect);
    TextEnds(idx);
    EndsWithAppend(buf, Text(idx), Tail(idx));
    assert Tail(idx) == " USING  (" + Join(idx.columns, Quote, ", ") + ")" by {
      assert MethodName(idx.kind) == "";
      assert " USING " + "" + " (" == " USING  (";
    }
  }

  /** The statement does not depend on the dialect. */
  lemma WriteSqlIgnoresDialect(buf: string, idx: Index, d1: SqlTypes.Dialect, d2: SqlTypes.Dialect)
    requires Writable(idx)
    ensures WriteSql(buf, idx, d1) == WriteSql(buf, idx, d2)
  {
  }
}

=== FILE: introspection.dfy ===
/** Reading a whole schema from the two catalog queries of
    `try_from_postgres`: the column rows become tables, then the foreign-key
    rows are attached to their columns. The queries themselves are inputs. */
module Introspection {
  import opened Wrappers
  import SqlTypes
  import Tables
  import Schemas
  import opened CatalogRows
  import opened TableGrouping
  import opened ForeignKeys

  /** The catalog can be read without a panic: no row panics in conversion,
      and if the tables are built the foreign-key scan over them succeeds. */
  predicate Readable(rows: seq<ColumnRow>, fks: seq<ForeignKeyRow>, schemaName: string,
                     fromStr: string -> Result<SqlTypes.Type>)
  {
    && NoPanic(rows, fromStr)
    && (TablesFromRows(rows, schemaName, fromStr).Success? ==>
          ScanSucceeds(TablesFromRows(rows, schemaName, fromStr).value, fks, 0))
  }

  /** `Schema::try_from_postgres` on given query results. The schema has one
      table per run of column rows, in order, each in the schema being read,
      named after its run, without indexes, and holding the run's converted
      rows as columns with at most their constraints changed; the first row
      that fails to convert fails the whole schema with its error. */
  function SchemaFromCatalog(rows: seq<ColumnRow>, fks: seq<ForeignKeyRow>, schemaName: string,
                             fromStr: string -> Result<SqlTypes.Type>): (r: Result<Schemas.Schema>)
    requires Readable(rows, fks, schemaName, fromStr)
    ensures r.Success? <==> ConvertRows(rows, fromStr).Success?
    ensures r.Failure? ==> r.error == ConvertRows(rows, fromStr).error
    ensures r.Success? ==> |r.value.tables| == |ChunkByTable(rows)|
    ensures r.Success? ==> forall i :: 0 <= i < |r.value.tables| ==>
              && r.value.tables[i].schema == Some(schemaName)
              && r.value.tables[i].name == Key(ChunkByTable(rows)[i])
              && r.value.tables[i].indexes == []
              && |r.value.tables[i].columns| == |ChunkByTable(rows)[i]|
    ensures r.Success? ==> SameShape(TablesFromRows(rows, schemaName, fromStr).value, r.value.tables)
  {
    var tables :- TablesFromRows(rows, schemaName, fromStr);
    var r := AttachForeignKeys(tables, fks, 0);
    ShapeOfRead(rows, schemaName, fromStr, tables, r);
    Success(Schemas.Schema(r))
  }

  lemma ShapeOfRead(rows: seq<ColumnRow>, schemaName: string, fromStr: string -> Result<SqlTypes.Type>,
                    tables: seq<Tables.Table>, r: seq<Tables.Table>)
    requires NoPanic(rows, fromStr)
    requires TablesFromRows(rows, schemaName, fromStr) == Success(tables)
    requires SameShape(tables, r)
    ensures |r| == |ChunkByTable(rows)|
    ensures forall i :: 0 <= i < |r| ==>
              && r[i].schema == Some(schemaName)
              && r[i].name == Key(ChunkByTable(rows)[i])
              && r[i].indexes == []
              && |r[i].columns| == |ChunkByTable(rows)[i]|
  {
    var chunks := ChunkByTable(rows);
    forall i | 0 <= i < |r|
      ensures && r[i].schema == Some(schemaName)
              && r[i].name == Key(chunks[i])
              && r[i].indexes == []
              && |r[i].columns| == |chunks[i]|
    {
      assert SameTableBut(tables[i], r[i]);
      assert BuiltFrom(tables[i], chunks[i], schemaName, fromStr);
    }
  }

  /** A schema read from the catalog is already named: `name_schema` with the
      schema name read changes nothing. */
  lemma ReadSchemaIsNamed(rows: seq<ColumnRow>, fks: seq<ForeignKeyRow>, schemaName: string,
                          fromStr: string -> Result<SqlTypes.Type>)
    requires Readable(rows, fks, schemaName, fromStr)
    requires SchemaFromCatalog(rows, fks, schemaName, fromStr).Success?
    ensures Schemas.NameSchema(SchemaFromCatalog(rows, fks, schemaName, fromStr).value, schemaName)
            == SchemaFromCatalog(rows, fks, schemaName, fromStr).value
  {
    Schemas.NameSchemaFixesNamed(SchemaFromCatalog(rows, fks, schemaName, fromStr).value, schemaName);
  }

  /** Without foreign keys the schema holds exactly the tables built from the
      column rows, and no column has a constraint. */
  lemma NoKeysNoConstraints(rows: seq<ColumnRow>, schemaName: string, fromStr: string -> Result<SqlTypes.Type>)
    requires Readable(rows, [], schemaName, fromStr)
    requires SchemaFromCatalog(rows, [], schemaName, fromStr).Success?
    ensures SchemaFromCatalog(rows, [], schemaName, fromStr).value.tables
            == TablesFromRows(rows, schemaName, fromStr).value
    ensures forall t, c :: t in SchemaFromCatalog(rows, [], schemaName, fromStr).value.tables && c in t.columns ==>
              c.constraint.None?
  {
    var tables := TablesFromRows(rows, schemaName, fromStr).value;
    forall t, c | t in tables && c in t.columns
      ensures c.constraint.None?
    {
      var i :| 0 <= i < |tables| && tables[i] == t;
      var n :| 0 <= n < |t.columns| && t.columns[n] == c;
      var chunk := ChunkByTable(rows)[i];
      assert BuiltFrom(t, chunk, schemaName, fromStr);
      ConvertRowsSucceeds(chunk, fromStr);
      assert ColumnFromRow(chunk[n], fromStr) == Success(c);
    }
  }

  /** When table names are distinct, each foreign key that no later key
      overrides ends up on the column it names, in the table it names. */
  lemma KeyLands(rows: seq<ColumnRow>, fks: seq<ForeignKeyRow>, schemaName: string,
                 fromStr: string -> Result<SqlTypes.Type>, m: nat, i: int, c: int)
    requires Readable(rows, fks, schemaName, fromStr)
    requires m < |fks| && LastFor(fks, m)
    ensures (var built := TablesFromRows(rows, schemaName, fromStr);
             built.Success? && DistinctNames(built.value) && Targets(built.value, fks[m], i, c)) ==>
              && SchemaFromCatalog(rows, fks, schemaName, fromStr).Success?
              && Holds(SchemaFromCatalog(rows, fks, schemaName, fromStr).value.tables, i, c, fks[m])
  {
    var built := TablesFromRows(rows, schemaName, fromStr);
    if built.Success? && DistinctNames(built.value) {
      AttachComplete(built.value, fks, 0);
    }
  }
}

=== FILE: schema.dfy ===
/** A schema is the list of its tables. `Schema::name_schema` is defined twice
    in the library, identically; this one definition models both. */
module Schemas {
  import opened Wrappers
  import Tables

  datatype Schema = Schema(tables: seq<Tables.Table>)

  /** The tables, each given the schema name `s` and otherwise unchanged. */
  predicate NamedFrom(before: seq<Tables.Table>, after: seq<Tables.Table>, s: string) {
    && |after| == |before|
    && forall i :: 0 <= i < |after| ==>
         after[i].schema == Some(s) && after[i].(schema := before[i].schema) == before[i]
  }

  /** Sets the schema of every table, front to back. */
  function NameTables(tables: seq<Tables.Table>, s: string): (r: seq<Tables.Table>)
    ensures NamedFrom(tables, r, s)
    decreases |tables|
  {
    if tables == [] then []
    else [Tables.WithSchema(tables[0], s)] + NameTables(tables[1..], s)
  }

  /** `name_schema`: every table now carries the schema name; the number and
      order of the tables, and each table's name, columns and indexes, are
      unchanged. */
  function NameSchema(sch: Schema, s: string): (r: Schema)
    ensures |r.tables| == |sch.tables|
    ensures forall i :: 0 <= i < |r.tables| ==> r.tables[i].schema == Some(s)
    ensures forall i :: 0 <= i < |r.tables| ==>
              && r.tables[i].name == sch.tables[i].name
              && r.tables[i].columns == sch.tables[i].columns
              && r.tables[i].indexes == sch.tables[i].indexes
  {
    Schema(NameTables(sch.tables, s))
  }

  /** Naming is idempotent, and the last name given wins. */
  lemma {:induction false} NameSchemaIdempotent(sch: Schema, s1: string, s2: string)
    ensures NameSchema(NameSchema(sch, s1), s2) == NameSchema(sch, s2)
    ensures NameSchema(NameSchema(sch, s1), s1) == NameSchema(sch, s1)
  {
    var once := NameSchema(sch, s2).tables;
    var twice := NameSchema(NameSchema(sch, s1), s2).tables;
    assert NamedFrom(sch.tables, once, s2);
    assert NamedFrom(NameSchema(sch, s1).tables, twice, s2);
    assert forall i :: 0 <= i < |once| ==> twice[i] == once[i];
  }

  /** Naming a schema that is already named `s` changes nothing. */
  lemma NameSchemaFixesNamed(sch: Schema, s: string)
    requires forall i :: 0 <= i < |sch.tables| ==> sch.tables[i].schema == Some(s)
    ensures NameSchema(sch, s) == sch
  {
    var r := NameSchema(sch, s);
    assert NamedFrom(sch.tables, r.tables, s);
    assert forall i :: 0 <= i < |r.tables| ==> r.tables[i] == sch.tables[i];
  }
}

=== FILE: table.dfy ===
/** Columns, their constraints, and tables with their builder methods
    (`Table::new`, `.column(..)`, `.index(..)`, `.schema(..)`). The column and
    constraint definitions themselves are not part of this model; their fields
    are the ones the catalog mapping fills in. */
module Tables {
  import opened Wrappers
  import SqlTypes
  import GeneratedColumns
  import Indexes

  /** `Constraint::ForeignKey(ForeignKey { table, columns })`, flattened: the
      referenced table and the referenced columns. */
  datatype Constraint = ForeignKey(table: string, columns: seq<string>)

  datatype Column = Column(
    name: string,
    typ: SqlTypes.Type,
    nullable: bool,
    primaryKey: bool,
    default: Option<SqlTypes.Expr>,
    constraint: Option<Constraint>,
    generated: Option<GeneratedColumns.Generated>)

  datatype Table = Table(
    schema: Option<string>,
    name: string,
    columns: seq<Column>,
    indexes: seq<Indexes.Index>)

  /** `Table::new`: a table with the given name and nothing else. */
  function New(name: string): (t: Table)
    ensures t.schema.None? && t.name == name
    ensures |t.columns| == 0 && |t.indexes| == 0
  {
    Table(None, name, [], [])
  }

  /** `.column(c)`: appends one column; every other field is kept. */
  function WithColumn(t: Table, c: Column): (r: Table)
    ensures |r.columns| == |t.columns| + 1 && r.columns[|t.columns|] == c
    ensures r.columns[..|t.columns|] == t.columns
    ensures r.(columns := t.columns) == t
  {
    t.(columns := t.columns + [c])
  }

  /** `.index(i)`: appends one index; every other field is kept. */
  function WithIndex(t: Table, i: Indexes.Index): (r: Table)
    ensures |r.indexes| == |t.indexes| + 1 && r.indexes[|t.indexes|] == i
    ensures r.indexes[..|t.indexes|] == t.indexes
    ensures r.(indexes := t.indexes) == t
  {
    t.(indexes := t.indexes + [i])
  }

  /** `.schema(s)`: sets the schema; every other field is kept. */
  function WithSchema(t: Table, s: string): (r: Table)
    ensures r.schema == Some(s)
    ensures r.(schema := t.schema) == t
  {
    t.(schema := Some(s))
  }

  /** A chain `t.column(c1).column(c2)...` over a sequence of columns. */
  function AddColumns(t: Table, cs: seq<Column>): (r: Table)
    decreases |cs|
  {
    if cs == [] then t else AddColumns(WithColumn(t, cs[0]), cs[1..])
  }

  /** A chain `t.index(i1).index(i2)...` over a sequence of indexes. */
  function AddIndexes(t: Table, idxs: seq<Indexes.Index>): (r: Table)
    decreases |idxs|
  {
    if idxs == [] then t else AddIndexes(WithIndex(t, idxs[0]), idxs[1..])
  }

  /** Chained `.column` calls append their columns in call order and touch
      nothing else. */
  lemma {:induction false} AddColumnsInOrder(t: Table, cs: seq<Column>)
    ensures AddColumns(t, cs).columns == t.columns + cs
    ensures AddColumns(t, cs).(columns := t.columns) == t
    decreases |cs|
  {
    if cs != [] {
      var t1 := WithColumn(t, cs[0]);
      AddColumnsInOrder(t1, cs[1..]);
      assert t1.columns + cs[1..] == t.columns + cs by {
        assert cs == [cs[0]] + cs[1..];
      }
    }
  }

  /** Chained `.index` calls append their indexes in call order and touch
      nothing else. */
  lemma {:induction false} AddIndexesInOrder(t: Table, idxs: seq<Indexes.Index>)
    ensures AddIndexes(t, idxs).indexes == t.indexes + idxs
    ensures AddIndexes(t, idxs).(indexes := t.indexes) == t
    decreases |idxs|
  {
    if idxs != [] {
      var t1 := WithIndex(t, idxs[0]);
      AddIndexesInOrder(t1, idxs[1..]);
      assert t1.indexes + idxs[1..] == t.indexes + idxs by {
        assert idxs == [idxs[0]] + idxs[1..];
      }
    }
  }

  /** A table built as `Table::new(n).column(..)...index(..)...schema(s)` holds
      exactly the name, columns, indexes and schema it was given. */
  lemma BuilderChain(n: string, cs: seq<Column>, idxs: seq<Indexes.Index>, s: string)
    ensures WithSchema(AddIndexes(AddColumns(New(n), cs), idxs), s) == Table(Some(s), n, cs, idxs)
  {
    AddColumnsInOrder(New(n), cs);
    AddIndexesInOrder(AddColumns(New(n), cs), idxs);
  }

  /** Setting the same schema twice is the same as setting it once, and a
      second `.schema` call overrides the first. */
  lemma SchemaLastWins(t: Table, s1: string, s2: string)
    ensures WithSchema(WithSchema(t, s1), s2) == WithSchema(t, s2)
    ensures WithSchema(WithSchema(t, s1), s1) == WithSchema(t, s1)
  {
  }

  /** The order of `.schema` and `.column` calls does not matter. */
  lemma SchemaCommutesWithColumn(t: Table, s: string, c: Column)
    ensures WithColumn(WithSchema(t, s), c) == WithSchema(WithColumn(t, c), s)
  {
  }
}

=== FILE: types.dfy ===
/** The pieces of the type and expression layer that the modelled code
    touches. The full `Type` enumeration, `Type::from_str`, `Expr` rendering
    and the `Dialect` enumeration are not part of this model: `Dialect` is an
    abstract type, and parsing and rendering are passed in as functions where
    they are used. */
module SqlTypes {

  /** Rust's `i32`. */
  type Int32 = x: int | -0x8000_0000 <= x < 0x8000_0000

  /** Rust's `u8`. */
  type UInt8 = x: int | 0 <= x < 0x100

  /** The target SQL dialect; rendering takes one but the modelled renderers
      never inspect it. */
  type Dialect

  /** The column types. `Numeric` and `Array` are the two parametric forms the
      catalog mapping builds itself; `I32` is the one scalar its tests name;
      `Scalar` stands for every other variant of the enumeration, which is
      only ever produced by the type-name parser. */
  datatype Type =
    | I32
    | Numeric(precision: UInt8, scale: UInt8)
    | Array(inner: Type)
    | Scalar(name: string)

  /** Expressions. Only raw SQL text is ever built by the modelled code. */
  datatype Expr = Raw(sql: string)

  /** `x as u8` for an `i32`: keeps the low eight bits, so the result is the
      one value in 0..255 congruent to `x` modulo 256 (two's complement for
      negative `x`). */
  function TruncateToUInt8(x: Int32): (r: UInt8)
    ensures (x - r) % 0x100 == 0
  {
    x % 0x100
  }

  /** A value that already fits in a byte is kept as is. */
  lemma TruncateKeepsBytes(x: Int32)
    requires 0 <= x < 0x100
    ensures TruncateToUInt8(x) == x
  {
  }

  /** Larger values wrap around: a precision of 266 becomes 10. */
  lemma TruncateWraps(x: Int32)
    requires 0 <= x < 0x100
    ensures TruncateToUInt8(x + 0x100) == x
    ensures x >= 1 ==> TruncateToUInt8(-x) == 0x100 - x
  {
  }
}

=== FILE: util.dfy ===
/** The identifier-quoting and sequence-joining primitives that every renderer
    builds on (the `SqlExtension` methods on `String`).

    Appending to a buffer, `buf.push_x(..)`, is modelled as a function from the
    old buffer to the new one. Next to each writer sits a reader that takes the
    written text apart again; the round-trip lemmas between the two say that
    the quoting is unambiguous. */
module Util {
  import opened Wrappers

  const QuoteChar: char := '"'

  /** Quoting panics on an identifier that itself holds a double quote, so only
      these identifiers can be written. */
  predicate Quotable(s: string) {
    QuoteChar !in s
  }

  /** The double-quoted form of an identifier. */
  function Quote(s: string): (r: string) {
    [QuoteChar] + s + [QuoteChar]
  }

  /** `push_quoted`: appends the identifier between double quotes. */
  function PushQuoted(buf: string, s: string): (r: string)
    requires Quotable(s)
    ensures |r| == |buf| + |s| + 2
    ensures buf <= r
    ensures ReadQuoted(r[|buf|..]) == Some((s, ""))
  {
    var r := buf + [QuoteChar] + s + [QuoteChar];
    assert r[|buf|..] == Quote(s) + "";
    QuotedRoundTrip(s, "");
    r
  }

  lemma PushQuotedAppends(buf: string, s: string)
    requires Quotable(s)
    ensures PushQuoted(buf, s) == buf + Quote(s)
  {
  }

  /** `push_table_name`: the quoted table name, preceded by the quoted schema
      name and a dot when there is a schema. */
  function PushTableName(buf: string, schema: Option<string>, table: string): (r: string)
    requires Quotable(table)
    requires schema.Some? ==> Quotable(schema.value)
    ensures buf <= r
    ensures schema.None? ==> r[|buf|..] == Quote(table)
    ensures schema.Some? ==> r[|buf|..] == Quote(schema.value) + "." + Quote(table)
    ensures ReadTableName(r[|buf|..]) == Some((schema, table, ""))
  {
    var b := if schema.Some? then PushQuoted(buf, schema.value) + "." else buf;
    var r := PushQuoted(b, table);
    assert r == buf + TableName(schema, table) by {
      if schema.Some? {
        Assoc(buf, Quote(schema.value), ".");
        Assoc(buf, Quote(schema.value) + ".", Quote(table));
      }
    }
    assert r[|buf|..] == TableName(schema, table) + "";
    TableNameRoundTrip(schema, table, "");
    r
  }

  lemma PushTableNameAppends(buf: string, schema: Option<string>, table: string)
    requires Quotable(table)
    requires schema.Some? ==> Quotable(schema.value)
    ensures PushTableName(buf, schema, table) == buf + TableName(schema, table)
  {
    var r := PushTableName(buf, schema, table);
    assert r == buf + r[|buf|..];
  }

  /** `push_sql`: appends whatever the node's own `write_sql` appends, here the
      text `render` gives for it. */
  function PushSql<T>(buf: string, node: T, render: T -> string): (r: string)
    ensures buf <= r
    ensures r[|buf|..] == render(node)
  {
    buf + render(node)
  }

  /** The text of a separator-joined sequence: the renderings of the items in
      order, with `sep` between each adjacent pair and nowhere else. This is
      the reference reading the writers are proved against. */
  function Join<T>(items: seq<T>, render: T -> string, sep: string): (r: string)
    decreases |items|
  {
    if |items| == 0 then ""
    else if |items| == 1 then render(items[0])
    else render(items[0]) + sep + Join(items[1..], render, sep)
  }

  /** `push_sql_sequence`: the loop with a `first` flag that writes a separator
      before every item but the first. */
  method PushSqlSequence<T>(buf: string, items: seq<T>, sep: string, render: T -> string)
    returns (r: string)
    ensures r == buf + Join(items, render, sep)
  {
    r := buf;
    var first := true;
    var i := 0;
    while i < |items|
      invariant 0 <= i <= |items|
      invariant first <==> i == 0
      invariant r == buf + Join(items[..i], render, sep)
    {
      if !first {
        r := r + sep;
      }
      JoinSnoc(items[..i], items[i], render, sep);
      assert items[..i] + [items[i]] == items[..i + 1];
      r := r + render(items[i]);
      first := false;
      i := i + 1;
    }
    assert items[..i] == items;
  }

  /** `push_quoted_sequence`, which the index renderer calls: each name quoted
      as by `PushQuoted`, joined by `sep`. */
  function PushQuotedSequence(buf: string, names: seq<string>, sep: string): (r: string)
    requires forall n :: n in names ==> Quotable(n)
    ensures buf <= r
    ensures r[|buf|..] == Join(names, Quote, sep)
  {
    buf + Join(names, Quote, sep)
  }

  /** Appending one more item adds one separator and its rendering at the end. */
  lemma {:induction false} JoinSnoc<T>(items: seq<T>, x: T, render: T -> string, sep: string)
    ensures Join(items + [x], render, sep)
         == if |items| == 0 then render(x) else Join(items, render, sep) + sep + render(x)
    decreases |items|
  {
    if |items| == 0 {
      assert items + [x] == [x];
    } else if |items| == 1 {
      assert (items + [x])[1..] == [x];
    } else {
      assert (items + [x])[1..] == items[1..] + [x];
      JoinSnoc(items[1..], x, render, sep);
    }
  }

  /** A non-empty join has no leading or trailing separator: it begins with the
      first item's rendering and ends with the last item's. */
  lemma {:induction false} JoinEnds<T>(items: seq<T>, render: T -> string, sep: string)
    requires |items| > 0
    ensures render(items[0]) <= Join(items, render, sep)
    ensures var j := Join(items, render, sep);
            var last := render(items[|items| - 1]);
            |last| <= |j| && j[|j| - |last|..] == last
    decreases |items|
  {
    if |items| > 1 {
      JoinEnds(items[1..], render, sep);
      var j := Join(items, render, sep);
      var tail := Join(items[1..], render, sep);
      var last := render(items[|items| - 1]);
      assert j == render(items[0]) + sep + tail;
      assert j[|j| - |last|..] == tail[|tail| - |last|..];
    }
  }

  /** Joining two non-empty runs puts exactly one separator between them. */
  lemma {:induction false} JoinAppend<T>(a: seq<T>, b: seq<T>, render: T -> string, sep: string)
    requires |a| > 0 && |b| > 0
    ensures Join(a + b, render, sep) == Join(a, render, sep) + sep + Join(b, render, sep)
    decreases |a|
  {
    if |a| == 1 {
      assert (a + b)[1..] == b;
    } else {
      assert (a + b)[1..] == a[1..] + b;
      JoinAppend(a[1..], b, render, sep);
    }
  }

  lemma Assoc<T>(a: seq<T>, b: seq<T>, c: seq<T>)
    ensures a + b + c == a + (b + c)
  {
  }

  lemma PrefixAfter<T>(a: seq<T>, b: seq<T>, c: seq<T>)
    ensures a + b <= a + c <==> b <= c
  {
    if a + b <= a + c {
      assert b == (a + b)[|a|..];
      assert c[..|b|] == (a + c)[|a|..][..|b|];
    }
  }

  /** `suffix` is the tail of `s`. */
  predicate EndsWith(s: string, suffix: string) {
    |suffix| <= |s| && s[|s| - |suffix|..] == suffix
  }

  lemma EndsWithAppend(a: string, b: string, suffix: string)
    requires |suffix| <= |b|
    ensures EndsWith(a + b, suffix) <==> EndsWith(b, suffix)
  {
    assert (a + b)[|a + b| - |suffix|..] == b[|b| - |suffix|..];
  }

  /** Splits `text` at the first occurrence of `c`: the part before it, and the
      rest starting with `c` (empty when there is none). */
  function SplitAt(text: string, c: char): (r: (string, string))
    ensures r.0 + r.1 == text
    ensures c !in r.0
    ensures r.1 == [] || r.1[0] == c
    decreases |text|
  {
    if |text| == 0 then ([], [])
    else if text[0] == c then ([], text)
    else
      var (before, after) := SplitAt(text[1..], c);
      ([text[0]] + before, after)
  }

  /** Splitting after a run without `c` finds exactly that run. */
  lemma {:induction false} SplitAtPrefix(s: string, c: char, rest: string)
    requires c !in s
    ensures SplitAt(s + [c] + rest, c) == (s, [c] + rest)
    decreases |s|
  {
    if |s| == 0 {
      assert s + [c] + rest == [c] + rest;
    } else {
      assert (s + [c] + rest)[1..] == s[1..] + [c] + rest;
      SplitAtPrefix(s[1..], c, rest);
      assert [s[0]] + s[1..] == s;
    }
  }

  /** Reads one quoted identifier off the front of `text`: its contents, and
      the text after the closing quote. */
  function ReadQuoted(text: string): (r: Option<(string, string)>)
    ensures r.Some? ==> Quotable(r.value.0) && text == Quote(r.value.0) + r.value.1
  {
    if |text| == 0 || text[0] != QuoteChar then None
    else
      var (ident, rest) := SplitAt(text[1..], QuoteChar);
      if |rest| == 0 then None
      else
        QuotedPrefix(text, ident, rest);
        Some((ident, rest[1..]))
  }

  /** Text that opens with a quote, then a run `ident` and a quote, is the
      quoted `ident` followed by what comes after. */
  lemma QuotedPrefix(text: string, ident: string, rest: string)
    requires |text| > 0 && text[0] == QuoteChar && text[1..] == ident + rest
    requires |rest| > 0 && rest[0] == QuoteChar
    ensures text == Quote(ident) + rest[1..]
  {
    assert text == [QuoteChar] + (ident + rest);
    assert rest == [QuoteChar] + rest[1..];
    Assoc([QuoteChar], ident, rest);
    Assoc([QuoteChar] + ident, [QuoteChar], rest[1..]);
  }

  /** A quoted identifier is read back exactly, whatever follows it. */
  lemma QuotedRoundTrip(s: string, rest: string)
    requires Quotable(s)
    ensures ReadQuoted(Quote(s) + rest) == Some((s, rest))
  {
    var text := Quote(s) + rest;
    assert text[1..] == s + [QuoteChar] + rest;
    SplitAtPrefix(s, QuoteChar, rest);
  }

  /** The text `PushTableName` writes. */
  function TableName(schema: Option<string>, table: string): (r: string) {
    match schema
    case None => Quote(table)
    case Some(s) => Quote(s) + "." + Quote(table)
  }

  /** Reads a possibly schema-qualified quoted table name off the front of
      `text`. */
  function ReadTableName(text: string): (r: Option<(Option<string>, string, string)>) {
    var first := ReadQuoted(text);
    if first.None? then None
    else
      var rest := first.value.1;
      if |rest| > 0 && rest[0] == '.' then
        var second := ReadQuoted(rest[1..]);
        if second.None? then None
        else Some((Some(first.value.0), second.value.0, second.value.1))
      else Some((None, first.value.0, rest))
  }

  /** A written table name is read back exactly, provided what follows does not
      itself start with a dot. */
  lemma TableNameRoundTrip(schema: Option<string>, table: string, rest: string)
    requires Quotable(table)
    requires schema.Some? ==> Quotable(schema.value)
    requires |rest| == 0 || rest[0] != '.'
    ensures ReadTableName(TableName(schema, table) + rest) == Some((schema, table, rest))
  {
    QuotedRoundTrip(table, rest);
    if schema.Some? {
      QualifiedNameRoundTrip(schema.value, table, rest);
    }
  }

  lemma QualifiedNameRoundTrip(s: string, table: string, rest: string)
    requires Quotable(s) && Quotable(table)
    ensures ReadTableName(Quote(s) + "." + Quote(table) + rest) == Some((Some(s), table, rest))
  {
    var after := "." + Quote(table) + rest;
    assert Quote(s) + "." + Quote(table) + rest == Quote(s) + after;
    QuotedRoundTrip(s, after);
    assert after[1..] == Quote(table) + rest;
    QuotedRoundTrip(table, rest);
  }

  /** Reads one or more quoted identifiers separated by `, ` off the front of
      `text`. */
  function ReadQuotedItems(text: string): (r: Option<(seq<string>, string)>)
    decreases |text|
  {
    match ReadQuoted(text)
    case None => None
    case Some((first, rest)) =>
      if ", " <= rest then
        match ReadQuotedItems(rest[2..])
        case None => None
        case Some((more, rest')) => Some(([first] + more, rest'))
      else Some(([first], rest))
  }

  /** A `, `-joined list of quoted identifiers is read back exactly, provided
      what follows does not itself start with `, `. */
  lemma {:induction false} QuotedItemsRoundTrip(names: seq<string>, rest: string)
    requires |names| > 0
    requires forall n :: n in names ==> Quotable(n)
    requires !(", " <= rest)
    ensures ReadQuotedItems(Join(names, Quote, ", ") + rest) == Some((names, rest))
    decreases |names|
  {
    if |names| == 1 {
      assert Join(names, Quote, ", ") == Quote(names[0]);
      QuotedRoundTrip(names[0], rest);
      assert names == [names[0]];
    } else {
      var tail := Join(names[1..], Quote, ", ") + rest;
      assert Join(names, Quote, ", ") + rest == Quote(names[0]) + (", " + tail);
      QuotedRoundTrip(names[0], ", " + tail);
      assert (", " + tail)[2..] == tail;
      QuotedItemsRoundTrip(names[1..], rest);
      assert [names[0]] + names[1..] == names;
    }
  }
}

=== FILE: wrappers.dfy ===
/** Option and Result, usable with `:-`; they stand for Rust's `Option` and
    `anyhow::Result`. */
module Wrappers {

  datatype Option<+T> = None | Some(value: T) {

    predicate IsFailure() {
      None?
    }

    function PropagateFailure<U>(): Option<U>
      requires None?
    {
      None
    }

    function Extract(): T
      requires Some?
    {
      value
    }
  }

  /** An error is carried as its message text. */
  datatype Result<+R> = Success(value: R) | Failure(error: string) {

    predicate IsFailure() {
      Failure?
    }

    function PropagateFailure<U>(): Result<U>
      requires Failure?
    {
      Failure(error)
    }

    function Extract(): R
      requires Success?
    {
      value
    }
  }
}
